=== FILE: README.md ===
# Farm server core, modelled in Dafny

This project models the authoritative core of a farming-game server.

- **Grid occupancy index** (`GridService`). It holds building records by id, a sparse map from grid cell to the building covering it, and the counter that numbers new buildings. It places, removes and upgrades buildings.
- **Buildings system.** It validates and applies `place.building`, `remove.building` and `upgrade.building` actions against the index. It uses a template registry and optional inventory ports that check and charge a cost.
- **Template registry.** Built-in `house` and `barn` templates, merged with caller overrides.
- **Action envelopes.** An action tag and payload, wrapped with the context the action arrived in, a deduplication id and a priority.
- **Farm room.** It routes each queued envelope to the system that owns its tag. It drains the queue in arrival order with validate-then-apply, and bumps the world version once per accepted action. On each gameplay tick it lets every system progress.
- **Building and crop definitions.** Validation of a raw JSON definition, its normalisation into an immutable definition, and serialisation back.
- **Instance factories** that create a new building or crop instance.
- **Shape checks** for a game configuration and a persisted farm state.

Files, one module each:

- `results.dfy` (`Results`): `Option` and `Result`.
- `decimal.dfy` (`Decimal`): decimal rendering and parsing of counters.
- `grid.dfy` (`Grid`): the occupancy index and its invariant `WellFormed`.
- `templates.dfy` (`Templates`): the registry.
- `buildings.dfy` (`Buildings`): the buildings system.
- `envelope.dfy` (`Envelopes`): envelopes and contexts.
- `room.dfy` (`Room`): routing, the queue drain and the tick.
- `room_buildings.dfy` (`BuildingsRoom`): the room with the buildings system plugged in.
- `json.dfy` (`Json`): untyped JSON values with the JavaScript notions the validators use.
- `building_def.dfy` (`BuildingDefs`) and `crop_def.dfy` (`CropDefs`): the definitions.
- `factories.dfy` (`Factories`): the instance factories.
- `shape_checks.dfy` (`ShapeChecks`): the shape checks.

The model is a set of pure functions over immutable values. The following become parameters:

- the clock: `now`, and the base-36 `stamp` in building ids;
- the random text in generated action ids;
- the uuid of a new instance;
- the inventory checker and applier, which are functions from a user id and a cost to a result.

An error the source throws itself becomes a `Result` error carrying the same message. An error the JavaScript engine raises on its own (a `TypeError` for a property read on `null` or `undefined`, or for calling `map` on a value without one) also becomes a `Result` error, but its text is a placeholder written for this model, not the engine's wording. An absent string field, and any other JavaScript-falsy value the source tests with `!x`, is modelled as `""`.

## Model

| member | source | states |
|---|---|---|
| Grid.FootprintShape | src/systems/building/impl/GridService.ts:27-35 | a w-by-h footprint lists exactly the w*h cells of the rectangle at the origin, each once |
| Decimal.ParseNatToString | src/systems/building/impl/GridService.ts:51 | the decimal rendering of the id counter parses back to the same counter |
| Grid.CounterOfMakeId | src/systems/building/impl/GridService.ts:51 | the counter an id `b_<counter>_<stamp>` was minted with can be read back from it, so ids minted with different counters differ |
| Grid.EmptyWellFormed | src/systems/building/impl/GridService.ts:10-12 | the empty index (no records, no occupancy, counter 1) satisfies the index invariant |
| Grid.FootprintsDisjoint | src/systems/building/impl/GridService.ts:37-48 | in a well-formed index no cell is covered by two recorded buildings |
| Grid.CanPlace | src/systems/building/impl/GridService.ts:37-48 | placement is allowed iff the origin is non-negative, the far edges stay within the bounds, and no footprint cell is occupied; any bounds violation alone forbids it |
| Grid.Place | src/systems/building/impl/GridService.ts:50-70 | the new building gets a fresh id minted from the old counter, owner, def, origin, level 1 and the footprint in its meta; the counter advances by one; its rotation is the given one or 0; every footprint cell now names it, and every other cell is unchanged |
| Grid.CanRemove | src/systems/building/impl/GridService.ts:72-75 | removal is allowed iff the building exists and the caller owns it |
| Grid.Remove | src/systems/building/impl/GridService.ts:77-87 | fails with `cannot_remove` exactly when removal is not allowed; otherwise only that record is dropped, exactly its footprint cells (taken from its meta, 1 when absent) are released, and the counter is kept |
| Grid.CanUpgrade | src/systems/building/impl/GridService.ts:89-94 | an upgrade is allowed iff the caller owns an existing building and, for a non-zero cap, its level is below the cap; a zero or absent cap imposes nothing |
| Grid.Upgrade | src/systems/building/impl/GridService.ts:96-101 | fails with `cannot_upgrade` exactly when the caller does not own an existing building; otherwise only that record's level changes: a level of 0 counts as 1 and becomes 2, any other level rises by one; occupancy is untouched |
| Grid.GetBuilding | src/systems/building/impl/GridService.ts:103-105 | the lookup finds a record iff one is filed under the id, and returns it |
| Grid.UpgradeFollowsCanUpgrade | src/systems/building/impl/GridService.ts:89-101 | an upgrade fails exactly when `canUpgrade` without a cap refuses |
| Grid.UpgradeIgnoresCap | src/systems/building/impl/GridService.ts:89-101 | a building already at a non-zero level cap fails `canUpgrade` with that cap, yet `upgrade` still raises it |
| Grid.GetBuildingAfterPlaceAndRemove | src/systems/building/impl/GridService.ts:50-105 | a placed building is found under its new id, its owner can remove it, and afterwards it is no longer found |
| Grid.AddFreshKeepsWellFormed | src/systems/building/impl/GridService.ts:63-68 | recording a building under a fresh id and claiming its vacant footprint keeps the index invariant |
| Grid.PlacePreservesWellFormed | src/systems/building/impl/GridService.ts:50-70 | a placement that `CanPlace` allows keeps the index invariant |
| Grid.DropKeepsWellFormed | src/systems/building/impl/GridService.ts:82-86 | dropping a record together with exactly its footprint cells keeps the index invariant |
| Grid.RemovePreservesWellFormed | src/systems/building/impl/GridService.ts:77-87 | a successful removal keeps the index invariant |
| Grid.SameFootprintsKeepWellFormed | src/systems/building/impl/GridService.ts:96-101 | changing records without changing their ids, positions or footprints keeps the index invariant |
| Grid.UpgradePreservesWellFormed | src/systems/building/impl/GridService.ts:96-101 | a successful upgrade keeps the index invariant |
| Grid.ReleasedFootprintRestores | src/systems/building/impl/GridService.ts:63-67 | claiming a vacant footprint and then releasing it leaves the occupancy map as it was |
| Grid.PlaceThenRemoveRestores | src/systems/building/impl/GridService.ts:50-87 | removing a building right after placing it restores the records and occupancy of before, with only the counter advanced |
| Templates.CreateRegistry | src/systems/building/templateRegistry.ts:17-25 | the registry holds the default keys plus the override keys; an override wins over a default of the same key |
| Templates.Get | src/systems/building/templateRegistry.ts:20-22 | a lookup finds a template iff the key is registered, and returns that template |
| Templates.LookupPrecedence | src/systems/building/templateRegistry.ts:17-25 | looking up a key gives the override when there is one, else the default, else nothing |
| Templates.DefaultShapes | src/systems/building/templateRegistry.ts:8-11 | the defaults are exactly a 2x2 house capped at level 3 and a 3x3 barn capped at level 5 |
| Buildings.CreateBuildingsSystem | src/systems/building/BuildingSystem.ts:30-33 | a new system has an empty, well-formed index, 30x30 bounds unless given, the default registry unless given, and the cost checker and applier exactly as given (none without options) |
| Buildings.Init | src/systems/building/BuildingSystem.ts:35-41 | init adopts the given slice, or resets to the empty well-formed index, and keeps bounds and registry |
| Buildings.ValidateAction | src/systems/building/BuildingSystem.ts:43-78 | the error codes in the source's order: NO_USER, INVALID_ACTION, INVALID_TEMPLATE, CANNOT_PLACE, INVALID_PAYLOAD, CANNOT_REMOVE, UNKNOWN_ACTION_TYPE; it accepts only a place or remove that the index allows |
| Buildings.ChargeCost | src/systems/building/BuildingSystem.ts:87-95 | the checker is called first; the applier is called only after a configured checker said yes; the errors fall back to NOT_ENOUGH_RESOURCES and COST_APPLY_FAILED; the charge succeeds iff no configured port refused |
| Buildings.PlaceCost | src/systems/building/BuildingSystem.ts:88 | the ports get `{gold}` exactly when the template's gold cost is non-zero, otherwise no cost |
| Buildings.UpgradeCost | src/systems/building/BuildingSystem.ts:129 | the corrected upgrade cost is only gold: the build gold times (level+1)/2, rounded down |
| Buildings.UpgradePortCost | src/systems/building/BuildingSystem.ts:129 | the ports get the corrected upgrade cost exactly when the template has a build cost, otherwise no cost |
| Buildings.UpgradeCostAsWritten | src/systems/building/BuildingSystem.ts:129 | the cost the line computes is `undefined` without a build cost, and empty for a numeric gold cost |
| Buildings.UpgradeCostMonotone | src/systems/building/BuildingSystem.ts:129 | for a non-negative build cost, the corrected upgrade cost never falls as the level rises |
| Buildings.UpgradeCostFinding | src/systems/building/BuildingSystem.ts:129 | for a 50-gold template at level 1, the cost as written is empty and the corrected cost is 50 gold; without a build cost both are `undefined` |
| Buildings.ApplyAction | src/systems/building/BuildingSystem.ts:80-149 | per action kind: the failure codes and which ports are called in which order; on failure the index is unchanged. A place adds exactly the placed building with its event, claims its footprint and leaves every other cell as it was. A remove drops the building and reports its origin. An upgrade raises the level of the building it reports (0 to 2, otherwise by one) and changes nothing else. Anything else is UNHANDLED_ACTION_IN_APPLY |
| Buildings.ValidatedApplyPreservesWellFormed | src/systems/building/BuildingSystem.ts:43-119 | applying an action that validated keeps the index invariant |
| Buildings.RemoveOrUpgradePreservesWellFormed | src/systems/building/BuildingSystem.ts:107-146 | removes and upgrades keep the index invariant even without validation |
| Buildings.PlaceAddsOneBuilding | src/systems/building/BuildingSystem.ts:81-105 | a successful placement increases the number of recorded buildings by exactly one |
| Buildings.UpgradeNeverValidates | src/systems/building/BuildingSystem.ts:66-77 | no upgrade action passes validation, since that branch is disabled |
| Buildings.UpgradeWithDefaultsFails | src/systems/building/BuildingSystem.ts:121-126 | with the default registry, upgrading any recorded building fails with INVALID_TEMPLATE_ON_BUILDING, because the template is looked up by the building's own id |
| Envelopes.Substr | src/models/ActionEnvelope.ts:148 | `substr` returns the `length` characters from `start` on, fewer where the string ends first, and nothing when `start` is past the end |
| Envelopes.CreateActionEnvelope | src/models/ActionEnvelope.ts:135-151 | the envelope keeps tag, payload and context. A non-empty supplied id is kept; otherwise the id starts with `<tag>_<timestamp>_`, followed by at most nine random characters. A non-zero supplied priority is kept; otherwise the priority is 0 |
| Envelopes.CreateActionContext | src/models/ActionEnvelope.ts:156-167 | the context carries the given client, user and metadata, stamped with the clock reading |
| Envelopes.RewrapKeepsEnvelope | src/models/ActionEnvelope.ts:135-151 | wrapping an envelope's tag, payload and context again with its own id and priority gives the same envelope, whatever random text is drawn |
| Envelopes.GeneratedIdCarriesTimestamp | src/models/ActionEnvelope.ts:135-167 | without options, the id starts with the tag and the clock reading of the context, and the priority is 0 |
| Room.Route | src/rooms/FarmRoom.ts:12-22 | exactly the nine listed tags are routed, each to its owning system (crops, buildings, animals, economy, inventory) |
| Room.RegisteredTags | src/rooms/FarmRoom.ts:12-34 | with the buildings and crops systems registered, exactly the three building tags and the two crop tags reach a system |
| Room.Enqueue | src/rooms/FarmRoom.ts:51-53 | the envelope joins the tail and nothing else changes |
| Room.EnqueueDrainsLast | src/rooms/FarmRoom.ts:51-67 | an enqueued envelope is drained after every envelope queued before it, from the room they leave; if one of them crashes the drain, it stays queued behind the rest |
| Room.DrainBookkeeping | src/rooms/FarmRoom.ts:55-67 | a drain raises the version by the number of broadcasts, which carry consecutive versions. Without a crash it empties the queue; a crash leaves a proper suffix of the queue. The room is dirty iff it was or something was broadcast |
| Room.CrashStep | src/rooms/FarmRoom.ts:58-60 | an envelope whose tag has no registered system ends the drain: it is consumed and the rest stays queued |
| Room.SkipStep | src/rooms/FarmRoom.ts:60-61 | a rejected envelope is dropped without a broadcast or a version change |
| Room.AcceptStep | src/rooms/FarmRoom.ts:62-65 | an accepted envelope is applied to the world and broadcast at the next version, before the rest of the queue |
| Room.DrainPreserves | src/rooms/FarmRoom.ts:55-67 | any property that every accepted apply preserves holds after a whole drain |
| Room.ProcessQueue | src/rooms/FarmRoom.ts:55-67 | the loop computes the reference drain. Broadcast versions are consecutive. The accepted envelopes are listed in strictly increasing queue order, one per broadcast, and each broadcast names its envelope's tag. The queue and the dirty flag end as the bookkeeping lemma states |
| Room.DrainLoop | src/rooms/FarmRoom.ts:55-67 | the `while` loop computes the reference drain, and lists the accepted envelopes in queue order, one per broadcast |
| Room.TickIndices | src/rooms/FarmRoom.ts:70-72 | the positions of the systems that define `onTick`, increasing: each such position once and no other |
| Room.Ticked | src/rooms/FarmRoom.ts:70-72 | a tick calls one system per position with `onTick`, in registration order |
| Room.OnTick | src/rooms/FarmRoom.ts:69-74 | every system with `onTick` is ticked once, in registration order, and no other; persistence is scheduled exactly when the room is dirty |
| BuildingsRoom.DrainKeepsGridWellFormed | src/rooms/FarmRoom.ts:55-67 | however the crops system behaves, draining the room keeps the buildings index invariant |
| BuildingsRoom.AwaitedDrain | src/rooms/FarmRoom.ts:55-67 | the drain with each apply finished before the next envelope is validated keeps bounds, registry and ports |
| BuildingsRoom.AwaitedDrainKeepsWellFormed | src/rooms/FarmRoom.ts:55-67 | the awaited drain keeps the buildings index invariant |
| BuildingsRoom.Settle | src/systems/building/BuildingSystem.ts:81-105 | the suspended places resume after the drain in acceptance order; with none pending the system is unchanged |
| BuildingsRoom.UnawaitedDrain | src/rooms/FarmRoom.ts:55-67 | the drain as the source runs it, with removes landing at once and checker-gated places deferred past the drain; without a checker, or without places, it is the awaited drain |
| BuildingsRoom.DeferredPlacesBreakGrid | src/systems/building/BuildingSystem.ts:86-97 | with a checker configured, two overlapping houses drained together both validate against the empty grid and are both placed, and the index stops being well formed |
| BuildingsRoom.RemoveFreesOrigin | src/systems/building/BuildingSystem.ts:107-112 | a remove validates and frees its building's cells at once, so a house at the same origin validates next |
| BuildingsRoom.RemoveThenPlaceLands | src/systems/building/BuildingSystem.ts:107-119 | with a checker configured, [remove the house, place a house at the same origin] drained together removes the first and places the second there |
| BuildingDefs.ValidateRaw | nakama/src/shared/configs/building-def.ts:54-67 | a non-object gets exactly "definition must be object"; otherwise each rule's message appears iff the rule fails, nothing else appears, and the messages come in rule order, each once; the list is empty iff every rule holds |
| BuildingDefs.FromJSON | nakama/src/shared/configs/building-def.ts:34-74 | invalid input fails with `Invalid BuildingDef <id>: <errors joined by "; ">`. A valid one is built unless a falsy, non-nullish `upgrades` cannot be mapped. The result keeps id and raw, every missing field takes its documented default, and each upgrade entry is a shallow copy: the spread of the entry: an object's own fields, the indexed items of an array, the indexed one-character strings of a string, and nothing from null, a boolean or a number |
| Json.Spread | nakama/src/shared/configs/building-def.ts:42 | `{ ...u }` copies an object's own fields, the items of an array and the characters of a string under their decimal indices, and nothing from null, undefined, a boolean or a number |
| BuildingDefs.NullUpgradeIsCopiedEmpty | nakama/src/shared/configs/building-def.ts:42-64 | a definition whose `upgrades` is `[null]` passes validation and gets one empty upgrade object |
| BuildingDefs.RoundTrip | nakama/src/shared/configs/building-def.ts:76-78 | serialising a definition built from a raw object gives back that object |
| CropDefs.Failing | shared/configs/crop-def.ts:87-103 | the failing checks are exactly those of the list the object fails |
| CropDefs.FailingInOrder | shared/configs/crop-def.ts:87-103 | the failing checks keep the order in which the checks are made |
| CropDefs.InCheckOrderUnique | shared/configs/crop-def.ts:84-105 | two lists in check order with the same members are equal |
| CropDefs.Problems | shared/configs/crop-def.ts:84-105 | a non-object has exactly one problem; otherwise the problems are exactly the checks it fails, in check order, each once |
| CropDefs.ProblemsDetermined | shared/configs/crop-def.ts:84-105 | any list in check order holding exactly an object's problems is the list validation returns |
| CropDefs.MessageInjective | shared/configs/crop-def.ts:86-103 | different problems are reported with different messages |
| CropDefs.ValidateRaw | shared/configs/crop-def.ts:84-105 | a non-object gets exactly "crop definition must be object"; an object gets the message of each check it fails and no other, in check order, each once |
| CropDefs.GrowthTimesLengthNeedsStages | shared/configs/crop-def.ts:97-99 | without a `growthStages`, the growth-time length check compares the length read with itself and never fails |
| CropDefs.ObjectGrowthTimesReportedOnce | shared/configs/crop-def.ts:90-99 | growth times given as an object whose `length` is an object are reported only as not being an array |
| CropDefs.ValidMeans | shared/configs/crop-def.ts:84-105 | a definition with no messages is an object that fails no check |
| CropDefs.Stages | shared/configs/crop-def.ts:43 | the stage count of a valid definition is at least 1. It equals the declared count when given; else the growth-time array's length (1 when empty) |
| CropDefs.GrowthTimes | shared/configs/crop-def.ts:44-52 | one growth time per stage: a matching array is floored and clamped at 1; else the base time is split evenly (at least 1); else 60 each |
| CropDefs.PerStage | shared/configs/crop-def.ts:54-59 | one value per stage: a matching array is clamped at the floor; else every stage gets the fallback |
| CropDefs.NormalizeYield | shared/configs/crop-def.ts:62-68 | a numeric yield is both bounds. Otherwise each given bound is floored and clamped at 0 (NaN stays NaN); min defaults to 1 and max to min |
| CropDefs.Build | shared/configs/crop-def.ts:39-82 | a normalised definition has at least one stage, every per-stage array has one entry per stage, and growth times are at least 1. Unmatched water and disease arrays become all 1 and all 0 |
| CropDefs.FromJSON | shared/configs/crop-def.ts:107-111 | fails exactly when validation reports messages, with `Invalid CropDef <id>: <messages>`; otherwise keeps id and raw and has growth times for every stage |
| CropDefs.RoundTrip | shared/configs/crop-def.ts:113-115 | serialising a definition built from a raw object gives back that object |
| CropDefs.ValidArraysAreKept | shared/configs/crop-def.ts:96-103 | with an explicit stage count, a valid definition's per-stage arrays all have that length, so normalisation keeps them |
| CropDefs.UncheckedWaterIsDropped | shared/configs/crop-def.ts:96-103 | a definition with neither a stage count nor growth times passes validation with a water array of any length, and normalisation then replaces an array whose length is not one by the default `[1]` |
| Factories.CreateBuildingInstance | nakama/src/shared/index.ts:9-26 | fails with `Unknown building def <id>` iff the def is unknown; otherwise a level-1, rotation-0 instance with the given def, owner and position, created now, with empty state and meta |
| Factories.ValidatedBuildingInstantiates | nakama/src/shared/index.ts:9-26 | a definition that passed `fromJSON`, registered under its id, yields a level-1 instance of that definition |
| Factories.FirstStageAt | nakama/src/shared/index.ts:33 | the first stage is due `now + t*1000` for the first growth time `t`, and NaN when there is none |
| Factories.CreateCropInstance | nakama/src/shared/index.ts:28-49 | fails with `Unknown crop def <id>` iff the def is unknown; otherwise a stage-0 crop, planted and last updated now, due for its next stage after the first growth time, unwatered, unfertilised, disease-free |
| Factories.ValidatedCropWaitsASecond | nakama/src/shared/index.ts:33 | a crop planted from a definition that passed validation reaches its next stage at least one second after planting, unless the time is NaN |
| ShapeChecks.ValidateConfigShape | shared/utils/validate.ts:4-9 | a config passes iff its version and checksum are both truthy. A missing version is reported before a missing checksum |
| ShapeChecks.ValidateFarmShape | shared/utils/validate.ts:11-15 | a farm state passes iff its farm id is truthy and its sequence is a number. A missing farm id is reported first |
| ShapeChecks.ChecksumStampingPasses | shared/utils/validate.ts:4-9 | a versioned config with an empty checksum fails with `missing checksum`, and passes once any non-empty digest is stamped on |
| ShapeChecks.ZeroSequencePasses | shared/utils/validate.ts:11-15 | a farm at sequence 0 passes, although 0 is falsy |
| ShapeChecks.OtherFieldsIgnored | shared/utils/validate.ts:4-15 | changing any field other than the checked ones never changes either verdict |
| ShapeChecks.FarmShapeNeedsNumericSequence | shared/utils/validate.ts:11-15 | with a non-empty farm id, a farm state passes exactly when its sequence is a number |

## Left out

- `getSnapshot` deep-copies the index. In a value model every state is already immutable, so `Buildings.GetStateSlice` is the identity.
- The real clock, `Math.random`, `uuid`, and the base-36 rendering of the clock are left out. They are parameters.
- Asynchrony. `applyAction` is asynchronous, and the room never awaits it: it broadcasts the promise. The model applies the action synchronously and broadcasts its result. Awaited ports are modelled as plain functions. With a cost checker configured, a place suspends at the checker before it touches the grid, so later envelopes of the same drain are validated before the earlier places land; two overlapping places can then both be placed (see Findings). The room as written configures no checker, and without one a place reaches the grid before `applyAction` returns.
- BuildingsRoom.DrainKeepsGridWellFormed: holds for the room's synchronous drain, which is the source's behaviour when no cost checker is configured. It does not hold for the source's drain with a checker configured; `DeferredPlacesBreakGrid` shows the input that breaks it, and `UnawaitedDrain` models that drain.
- The room passes `env.payload` to the systems where they read an action (`action.type`, `action.payload`). The model routes by the envelope's tag and hands the routed system a typed action.
- The room creates the buildings system with `globalTemplateRegistry`, a name that `templateRegistry.ts` does not export. The argument is therefore `undefined`, and the system takes its defaults: `CreateBuildingsSystem(None)`. The room also calls `createCropsSystem(...)` with a placeholder; the crops system is not part of this model and is a parameter of `BuildingsRoom`.
- The room hands every system the same `this.state`. In `BuildingsRoom` each system owns its own slice of the world, so the crops system cannot touch the buildings index. `DrainKeepsGridWellFormed` holds "however the crops system behaves" only under that separation.
- Authentication, snapshot loading and persistence, `client.send` of the initial snapshot, and the debounced `schedulePersist` are I/O and left out. The model only records that persistence would be scheduled.
- Rejections are dropped silently; the source only carries a comment saying to reply.
- The default registry entries declare `width`/`height`, but the system reads `size.w`/`size.h` and `buildCost.gold`, which those entries lack; in the source, reading `tpl.size.w` throws. `Templates.Template` carries one footprint and one gold cost, with 0 standing for an absent cost.
- The JavaScript prototype keys are not modelled. `templates[templateId]` would find inherited keys such as `constructor`; the model's registry is a plain map.
- NaN and Infinity are not modelled as values. A number conversion that yields NaN is `None`. Strings, arrays and objects convert to NaN instead of being parsed.
- The error texts interpolate the raw id with JavaScript's string conversion. The model renders string and boolean ids, and renders any other id as "".
- `maxCapacity`, `buildCost`, `production` and `special` are carried only in the definitions' `raw` map.
- Metadata values of an action context are kept as text.
- All envelopes drained in one call share one clock reading and one id stamp.
- The buildings system's `onTick` does nothing; the room's tick is modelled only as which systems are called.
- The room's dirty flag is never cleared in the source, and it is not cleared in the model either.
- Buildings.ApplyAction: the TypeErrors the source raises on a template's cost are not modelled. A place with a checker configured reads `tpl.buildCost.gold` and throws when the template has no `buildCost` (BuildingSystem.ts:88). An upgrade throws at `Object.entries(undefined)` when the `buildCost` has no `gold` (BuildingSystem.ts:129). Templates carry one gold cost, 0 standing for an absent `buildCost`, and for it the model hands the ports `undefined` in both branches.
- Buildings.ApplyAction: the upgrade branch hands the ports the corrected cost `UpgradePortCost`, not the empty cost the source computes (see Findings). A port that refuses any non-empty cost therefore stops an upgrade in the model that goes through in the source.
- `place` does not re-check `canPlace` (GridService.ts:50-70), and the model does not either.
- An unroutable tag, or a tag whose system is not registered, makes the drain call a method on `undefined` (FarmRoom.ts:58-60). The exception ends the drain, and the model records it as a crash.
- Room.Drain: `validateAction` is total in the model, so only an unroutable tag crashes a drain. In the source any exception inside `validateAction` also ends the drain, since `processQueue` has no `try` (FarmRoom.ts:55-67). One example is a place without `payload` or `origin`, which throws at BuildingSystem.ts:48-51.
- The room always hands the buildings system an action (`Some(a)`), so `INVALID_ACTION` for a missing action is reachable through `Buildings.ValidateAction` but not through `BuildingsRoom`. In the source the room would pass an `undefined` `env.payload` when an envelope has none.
- `validateAction` rejects `upgrade.building`, because its upgrade branch is commented out (BuildingSystem.ts:66-77).
- Json.Spread: a string is spread into one entry per `char`; JavaScript spreads UTF-16 code units, which the model does not distinguish from characters.

## Findings

| source | as written | input that shows it | evidently intended | confidence | as-written member | corrected member |
|---|---|---|---|---|---|---|
| src/systems/building/BuildingSystem.ts:129 | the upgrade cost maps over `Object.entries(tpl.buildCost.gold)`, the entries of a number, which are empty, so the ports are asked for an empty cost | a template with a 50-gold build cost, upgraded at level 1: the cost is `{}` | each build-cost resource scaled by (level+1)/2 and rounded down, i.e. `{gold: 50}` | medium, not executed | Buildings.UpgradeCostAsWritten | Buildings.UpgradePortCost |
| src/rooms/FarmRoom.ts:62 | the room calls the async `applyAction` without awaiting it; with a cost checker configured, a place first awaits the checker (BuildingSystem.ts:87-88) and only then places (BuildingSystem.ts:97), so every envelope of the drain is validated before any earlier place lands | an empty grid, a checker that approves everything, and two `place.building` envelopes for a template with a 2x2 `size` (the model's house) at (0,0) and (1,1), drained together: both pass `canPlace` and both are placed, and cell (1,1) no longer names the first house | each envelope validated against the grid its predecessors left, i.e. `applyAction` awaited before the next envelope | medium, not executed | BuildingsRoom.DeferredPlacesBreakGrid | BuildingsRoom.AwaitedDrainKeepsWellFormed |

=== FILE: building_def.dfy ===
/** Building definitions: validation of a raw definition and the immutable,
    defaulted definition built from a valid one. The capacity, cost and
    production records are carried only inside `raw`. */
module BuildingDefs {
  import opened Results
  import opened Json

  datatype Size = Size(w: real, h: real)

  datatype Placement = Placement(canOverlap: Value, requiresFoundation: Value)

  datatype BuildingDef = BuildingDef(
    id: string,
    name: Value,
    category: Value,
    size: Size,
    buildTimeSeconds: real,
    upgrades: seq<map<string, Value>>,
    placement: Placement,
    tags: Value,
    raw: map<string, Value>)

  const NOT_OBJECT := "definition must be object"
  const BAD_ID := "id is required and must be string"
  const BAD_SIZE := "size.w and size.h must be numbers"
  const BAD_TIME := "buildTimeSeconds must be number"
  const BAD_UPGRADES := "upgrades must be array"

  function Check(ok: bool, message: string): seq<string> {
    if ok then [] else [message]
  }

  predicate IdOk(raw: Value) {
    Truthy(Field(raw, "id")) && Field(raw, "id").Str?
  }

  predicate SizeOk(raw: Value) {
    var size := Field(raw, "size");
    !Truthy(size) || (Field(size, "w").Num? && Field(size, "h").Num?)
  }

  predicate TimeOk(raw: Value) {
    var t := Field(raw, "buildTimeSeconds");
    t.Undefined? || t.Num?
  }

  predicate UpgradesOk(raw: Value) {
    !Truthy(Field(raw, "upgrades")) || Field(raw, "upgrades").Arr?
  }

  /** The position of a rule's message in the order the rules are checked. */
  function RuleRank(m: string): nat {
    if m == BAD_ID then 1 else if m == BAD_SIZE then 2 else if m == BAD_TIME then 3 else 4
  }

  /** The error messages for a raw definition; a non-object gets exactly
      one. For an object, each rule's message appears iff the rule fails,
      nothing else appears, and the messages come in rule order, so each at
      most once. */
  function ValidateRaw(raw: Value): (errs: seq<string>)
    ensures !Truthy(raw) || !IsObjectType(raw) ==> errs == [NOT_OBJECT]
    ensures Truthy(raw) && IsObjectType(raw) ==>
      && (forall m :: m in errs ==> m in {BAD_ID, BAD_SIZE, BAD_TIME, BAD_UPGRADES})
      && (BAD_ID in errs <==> !IdOk(raw))
      && (BAD_SIZE in errs <==> !SizeOk(raw))
      && (BAD_TIME in errs <==> !TimeOk(raw))
      && (BAD_UPGRADES in errs <==> !UpgradesOk(raw))
      && (forall i, j :: 0 <= i < j < |errs| ==> RuleRank(errs[i]) < RuleRank(errs[j]))
    ensures errs == [] <==> Truthy(raw) && IsObjectType(raw) && IdOk(raw) && SizeOk(raw) && TimeOk(raw) && UpgradesOk(raw)
  {
    if !Truthy(raw) || !IsObjectType(raw) then [NOT_OBJECT]
    else
      Check(IdOk(raw), BAD_ID) + Check(SizeOk(raw), BAD_SIZE)
      + Check(TimeOk(raw), BAD_TIME) + Check(UpgradesOk(raw), BAD_UPGRADES)
  }

  function Join(parts: seq<string>, sep: string): string {
    if |parts| == 0 then "" else if |parts| == 1 then parts[0] else parts[0] + sep + Join(parts[1..], sep)
  }

  /** `${raw?.id ?? ""}` for the ids this model renders: strings, booleans
      and missing ids; any other id renders as the empty string here. */
  function IdText(raw: Value): string {
    match Field(raw, "id")
    case Str(s) => s
    case Bool(b) => if b then "true" else "false"
    case _ => ""
  }

  /** A falsy `upgrades` that is not nullish (false, 0, "") survives `??` and
      then has no `map` method. */
  predicate UpgradesMappable(raw: Value) {
    var u := Field(raw, "upgrades");
    Nullish(u) || u.Arr?
  }

  /** `items.map(u => ({ ...u }))`: each upgrade entry becomes a fresh object
      holding the properties the spread copies. */
  function Copies(items: seq<Value>): (r: seq<map<string, Value>>)
    ensures |r| == |items|
    ensures forall i :: 0 <= i < |items| ==> r[i] == Spread(items[i])
  {
    seq(|items|, i requires 0 <= i < |items| => Spread(items[i]))
  }

  /** The private constructor: every missing field takes its default. */
  function Build(raw: Value): (d: BuildingDef)
    requires ValidateRaw(raw) == [] && UpgradesMappable(raw)
  {
    var size := Field(raw, "size");
    var w := Coalesce(Field(size, "w"), Num(1.0));
    var h := Coalesce(Field(size, "h"), Num(1.0));
    var t := Coalesce(Field(raw, "buildTimeSeconds"), Num(0.0));
    var placement := Field(raw, "placement");
    BuildingDef(
      Field(raw, "id").s,
      Coalesce(Field(raw, "name"), Field(raw, "id")),
      Coalesce(Field(raw, "category"), Str("generic")),
      Size(if w.Num? then w.n else 1.0, if h.Num? then h.n else 1.0),
      if t.Num? then t.n else 0.0,
      Copies(if Field(raw, "upgrades").Arr? then Field(raw, "upgrades").items else []),
      Placement(Coalesce(Field(placement, "canOverlap"), Bool(false)),
                Coalesce(Field(placement, "requiresFoundation"), Bool(false))),
      Coalesce(Field(raw, "tags"), Arr([])),
      raw.fields)
  }

  /** Validates, then builds; fails exactly when validation reports errors
      (or, past validation, when a falsy non-nullish `upgrades` cannot be
      mapped). */
  function FromJSON(raw: Value): (r: Result<BuildingDef>)
    ensures ValidateRaw(raw) != [] ==> r == Err("Invalid BuildingDef " + IdText(raw) + ": " + Join(ValidateRaw(raw), "; "))
    ensures ValidateRaw(raw) == [] ==> (r.Ok? <==> UpgradesMappable(raw))
    ensures r.Ok? ==> raw.Obj? && r.value.raw == raw.fields
    ensures r.Ok? ==>
      var d := r.value;
      var size := Field(raw, "size");
      && Str(d.id) == Field(raw, "id") && d.id != ""
      && d.name == (if Nullish(Field(raw, "name")) then Str(d.id) else Field(raw, "name"))
      && d.category == (if Nullish(Field(raw, "category")) then Str("generic") else Field(raw, "category"))
      && (Field(size, "w").Num? ==> d.size.w == Field(size, "w").n)
      && (Nullish(Field(size, "w")) ==> d.size.w == 1.0)
      && (Field(size, "h").Num? ==> d.size.h == Field(size, "h").n)
      && (Nullish(Field(size, "h")) ==> d.size.h == 1.0)
      && (Field(raw, "buildTimeSeconds").Undefined? ==> d.buildTimeSeconds == 0.0)
      && (Field(raw, "buildTimeSeconds").Num? ==> d.buildTimeSeconds == Field(raw, "buildTimeSeconds").n)
      && d.placement.canOverlap ==
           (if Nullish(Field(Field(raw, "placement"), "canOverlap")) then Bool(false)
            else Field(Field(raw, "placement"), "canOverlap"))
      && d.placement.requiresFoundation ==
           (if Nullish(Field(Field(raw, "placement"), "requiresFoundation")) then Bool(false)
            else Field(Field(raw, "placement"), "requiresFoundation"))
      && d.tags == (if Nullish(Field(raw, "tags")) then Arr([]) else Field(raw, "tags"))
      && (Nullish(Field(raw, "upgrades")) ==> d.upgrades == [])
      && (Field(raw, "upgrades").Arr? ==>
            && |d.upgrades| == |Field(raw, "upgrades").items|
            && forall i :: 0 <= i < |d.upgrades| ==>
                 var u := Field(raw, "upgrades").items[i];
                 && d.upgrades[i] == Spread(u)
                 && (u.Obj? ==> d.upgrades[i] == u.fields)
                 && (Nullish(u) || u.Bool? || u.Num? ==> d.upgrades[i] == map[])
                 && (u.Arr? ==> d.upgrades[i] == Indexed(u.items)))
  {
    var errs := ValidateRaw(raw);
    if errs != [] then Err("Invalid BuildingDef " + IdText(raw) + ": " + Join(errs, "; "))
    else if !UpgradesMappable(raw) then Err("TypeError: upgrades.map is not a function")
    else Ok(Build(raw))
  }

  /** A shallow copy of the raw definition. */
  function ToJSON(d: BuildingDef): Value {
    Obj(d.raw)
  }

  /** Serialising a definition built from `raw` gives back `raw`. */
  lemma RoundTrip(raw: Value)
    requires FromJSON(raw).Ok?
    ensures ToJSON(FromJSON(raw).value) == raw
  {
  }

  /** Validation only asks that `upgrades` be an array, so a `null` entry is
      accepted, and the copy turns it into an empty object. */
  lemma NullUpgradeIsCopiedEmpty(id: string)
    requires |id| > 0
    ensures var raw := Obj(map["id" := Str(id), "upgrades" := Arr([Null])]);
      FromJSON(raw).Ok? && FromJSON(raw).value.upgrades == [map[]]
  {
    var raw := Obj(map["id" := Str(id), "upgrades" := Arr([Null])]);
    assert Field(raw, "id") == Str(id) && Field(raw, "upgrades") == Arr([Null]);
    assert ValidateRaw(raw) == [];
  }
}

=== FILE: buildings.dfy ===
/** The buildings domain system: validates and applies place, remove and
    upgrade actions against the grid index and the template registry, with
    optional cost-check and cost-apply ports consulted before any mutation. */
module Buildings {
  import opened Results
  import opened Grid
  import opened Templates

  const PLACE := "place.building"
  const REMOVE := "remove.building"
  const UPGRADE := "upgrade.building"

  /** Resource name to quantity. */
  type Cost = map<string, int>

  /** A port's answer; an empty `error` stands for an absent one. */
  datatype PortResult = PortResult(ok: bool, error: string)

  /** An injected cost port, called with the acting user and the cost
      (`None` stands for an `undefined` cost). */
  type CostPort = (string, Option<Cost>) -> PortResult

  datatype PortKind = Checker | Applier

  /** One call made to a port, recorded in call order. */
  datatype PortCall = PortCall(port: PortKind, userId: string, cost: Option<Cost>)

  datatype Options = Options(
    bounds: Option<Bounds>,
    registry: Option<Registry>,
    checker: Option<CostPort>,
    applier: Option<CostPort>)

  datatype System = System(
    grid: GridState,
    bounds: Bounds,
    registry: Registry,
    checker: Option<CostPort>,
    applier: Option<CostPort>)

  /** The fields of a system action payload the buildings system reads; an
      empty `buildingId` stands for a missing one. */
  datatype Payload = Payload(templateId: string, origin: Pos, rotation: Option<int>, buildingId: string)

  /** A system action; an empty `kind` stands for a missing `type`. */
  datatype Action = Action(kind: string, payload: Payload)

  datatype Verdict = Accept | Reject(error: string)

  datatype Delta = Added(added: seq<Building>) | Removed(removed: seq<string>) | Updated(updated: seq<Building>)

  datatype Event =
    | BuildingPlaced(placed: Building)
    | BuildingRemoved(buildingId: string, origin: Option<Pos>)
    | BuildingUpgraded(upgraded: Building)

  /** The outcome of `applyAction`: a success with its delta and events, a
      returned failure, or an exception escaping the (async) call. */
  datatype ActionResult =
    | Success(delta: Delta, events: seq<Event>, serverTime: int)
    | Failure(error: string)
    | Thrown(message: string)

  datatype Applied = Applied(sys: System, result: ActionResult, calls: seq<PortCall>)

  const DefaultBounds := Bounds(30, 30)

  /** A fresh system: 30x30 bounds and the default registry unless given,
      and an empty index. */
  function CreateBuildingsSystem(opts: Option<Options>): (s: System)
    ensures s.grid == Grid.Empty && WellFormed(s.grid)
    ensures s.bounds == if opts.Some? && opts.value.bounds.Some? then opts.value.bounds.value else Bounds(30, 30)
    ensures s.registry == if opts.Some? && opts.value.registry.Some? then opts.value.registry.value else CreateRegistry(None)
    ensures s.checker == if opts.Some? then opts.value.checker else None
    ensures s.applier == if opts.Some? then opts.value.applier else None
  {
    EmptyWellFormed();
    match opts
    case None => System(Grid.Empty, DefaultBounds, CreateRegistry(None), None, None)
    case Some(o) => System(Grid.Empty, o.bounds.GetOr(DefaultBounds), o.registry.GetOr(CreateRegistry(None)), o.checker, o.applier)
  }

  /** Adopts a loaded slice, or starts from an empty index. */
  function Init(s: System, slice: Option<GridState>): (r: System)
    ensures slice.None? ==> r.grid == Grid.Empty && WellFormed(r.grid)
    ensures slice.Some? ==> r.grid == slice.value
    ensures r.bounds == s.bounds && r.registry == s.registry
  {
    EmptyWellFormed();
    s.(grid := slice.GetOr(Grid.Empty))
  }

  /** The slice this system persists and broadcasts. */
  function GetStateSlice(s: System): GridState {
    s.grid
  }

  /** Cheap synchronous checks; never touches the grid. Upgrades are not
      accepted: their branch is disabled in the source. */
  function ValidateAction(s: System, action: Option<Action>, userId: string): (v: Verdict)
    ensures userId == "" ==> v == Reject("NO_USER")
    ensures userId != "" && (action.None? || action.value.kind == "") ==> v == Reject("INVALID_ACTION")
    ensures v.Accept? ==> userId != "" && action.Some? && action.value.kind in {PLACE, REMOVE}
    ensures userId != "" && action.Some? && action.value.kind !in {"", PLACE, REMOVE} ==> v == Reject("UNKNOWN_ACTION_TYPE")
    ensures userId != "" && action.Some? && action.value.kind == PLACE ==>
      var p := action.value.payload;
      && (p.templateId !in s.registry ==> v == Reject("INVALID_TEMPLATE"))
      && (p.templateId in s.registry ==>
            var t := s.registry[p.templateId];
            v == if CanPlace(s.grid, p.origin, t.w, t.h, s.bounds) then Accept else Reject("CANNOT_PLACE"))
    ensures userId != "" && action.Some? && action.value.kind == REMOVE ==>
      var p := action.value.payload;
      && (p.buildingId == "" ==> v == Reject("INVALID_PAYLOAD"))
      && (p.buildingId != "" ==> v == if CanRemove(s.grid, userId, p.buildingId) then Accept else Reject("CANNOT_REMOVE"))
  {
    if userId == "" then Reject("NO_USER")
    else if action.None? || action.value.kind == "" then Reject("INVALID_ACTION")
    else
      var a := action.value;
      if a.kind == PLACE then
        match Get(s.registry, a.payload.templateId)
        case None => Reject("INVALID_TEMPLATE")
        case Some(t) =>
          if !CanPlace(s.grid, a.payload.origin, t.w, t.h, s.bounds) then Reject("CANNOT_PLACE") else Accept
      else if a.kind == REMOVE then
        if a.payload.buildingId == "" then Reject("INVALID_PAYLOAD")
        else if !CanRemove(s.grid, userId, a.payload.buildingId) then Reject("CANNOT_REMOVE")
        else Accept
      else Reject("UNKNOWN_ACTION_TYPE")
  }

  /** `e || fallback` for a port's error text. */
  function ErrorOr(e: string, fallback: string): string {
    if e == "" then fallback else e
  }

  datatype Charge = Charge(error: Option<string>, calls: seq<PortCall>)

  /** The check-then-apply cost exchange: the checker is asked first; the
      applier is called only when a checker is configured and said yes. */
  function ChargeCost(checker: Option<CostPort>, applier: Option<CostPort>, userId: string, cost: Option<Cost>): (c: Charge)
    ensures checker.None? ==> c == Charge(None, [])
    ensures checker.Some? ==> 1 <= |c.calls| <= 2 && c.calls[0] == PortCall(Checker, userId, cost)
    ensures |c.calls| == 2 ==> c.calls[1] == PortCall(Applier, userId, cost) && checker.value(userId, cost).ok && applier.Some?
    ensures checker.Some? && !checker.value(userId, cost).ok ==>
      c == Charge(Some(ErrorOr(checker.value(userId, cost).error, "NOT_ENOUGH_RESOURCES")), [PortCall(Checker, userId, cost)])
    ensures checker.Some? && checker.value(userId, cost).ok && applier.Some? ==> |c.calls| == 2
    ensures checker.Some? && checker.value(userId, cost).ok && applier.Some? && !applier.value(userId, cost).ok ==>
      c.error == Some(ErrorOr(applier.value(userId, cost).error, "COST_APPLY_FAILED"))
    ensures c.error.None? <==>
      checker.None? || (checker.value(userId, cost).ok && (applier.None? || applier.value(userId, cost).ok))
  {
    match checker
    case None => Charge(None, [])
    case Some(check) =>
      var checked := check(userId, cost);
      var first := [PortCall(Checker, userId, cost)];
      if !checked.ok then Charge(Some(ErrorOr(checked.error, "NOT_ENOUGH_RESOURCES")), first)
      else match applier
        case None => Charge(None, first)
        case Some(apply) =>
          var applied := apply(userId, cost);
          var calls := first + [PortCall(Applier, userId, cost)];
          if !applied.ok then Charge(Some(ErrorOr(applied.error, "COST_APPLY_FAILED")), calls)
          else Charge(None, calls)
  }

  /** The cost handed to the ports for a placement: the template's gold, or
      `undefined` when it is zero or absent. */
  function PlaceCost(t: Template): (c: Option<Cost>)
    ensures c.Some? <==> t.gold != 0
    ensures c.Some? ==> c.value.Keys == {"gold"} && c.value["gold"] == t.gold
  {
    if t.gold != 0 then Some(map["gold" := t.gold]) else None
  }

  /** The cost of upgrading from `level`: each build-cost resource scaled by
      (level+1)/2 and rounded down. This is the evidently intended reading of
      the source; see `UpgradeCostAsWritten` for what the source computes. */
  function UpgradeCost(t: Template, level: int): (c: Cost)
    ensures c.Keys == {"gold"}
    ensures 2 * c["gold"] <= t.gold * (level + 1) < 2 * c["gold"] + 2
  {
    map["gold" := (t.gold * (level + 1)) / 2]
  }

  /** The cost handed to the ports for an upgrade: the corrected cost, or
      `undefined` when the template has no build cost (a gold cost of 0). */
  function UpgradePortCost(t: Template, level: int): (c: Option<Cost>)
    ensures c.Some? <==> t.gold != 0
    ensures c.Some? ==> c.value == UpgradeCost(t, level)
  {
    if t.gold != 0 then Some(UpgradeCost(t, level)) else None
  }

  /** What the source computes: `undefined` without a build cost; otherwise
      it maps over the entries of the numeric `buildCost.gold`, and a number
      has no own entries, so the cost is empty. */
  function UpgradeCostAsWritten(t: Template, level: int): (c: Option<Cost>)
    ensures c.Some? <==> t.gold != 0
    ensures c.Some? ==> |c.value| == 0
  {
    if t.gold != 0 then Some(map[]) else None
  }

  /** The upgrade cost never decreases as the level rises (for a non-negative base). */
  lemma {:induction false} UpgradeCostMonotone(t: Template, l1: int, l2: int)
    requires 0 <= t.gold && l1 <= l2
    ensures UpgradeCost(t, l1)["gold"] <= UpgradeCost(t, l2)["gold"]
  {
    assert t.gold * (l1 + 1) <= t.gold * (l2 + 1) by {
      assert t.gold * (l2 + 1) - t.gold * (l1 + 1) == t.gold * (l2 - l1);
    }
  }

  /** As written, upgrading a building whose template costs 50 gold is free
      at level 1; the intended cost is 50 gold. Without a build cost both
      readings hand the ports `undefined`. */
  lemma UpgradeCostFinding()
    ensures UpgradeCostAsWritten(House.(gold := 50), 1) == Some(map[])
    ensures UpgradePortCost(House.(gold := 50), 1) == Some(map["gold" := 50])
    ensures UpgradeCostAsWritten(House, 1) == None && UpgradePortCost(House, 1) == None
  {
  }

  /** Performs an action already validated by the caller. Place and upgrade
      consult the cost ports first; a failure at any step leaves the grid as
      it was. */
  function ApplyAction(s: System, a: Action, userId: string, now: int, stamp: string): (o: Applied)
    ensures o.sys.bounds == s.bounds && o.sys.registry == s.registry
    ensures o.sys.checker == s.checker && o.sys.applier == s.applier
    ensures !o.result.Success? ==> o.sys.grid == s.grid
    ensures a.kind !in {PLACE, REMOVE, UPGRADE} ==> o.result == Failure("UNHANDLED_ACTION_IN_APPLY") && o.calls == []
    // placement
    ensures a.kind == PLACE && a.payload.templateId !in s.registry ==> o.result == Failure("INVALID_TEMPLATE") && o.calls == []
    ensures a.kind == PLACE && a.payload.templateId in s.registry ==>
      var t := s.registry[a.payload.templateId];
      var charge := ChargeCost(s.checker, s.applier, userId, PlaceCost(t));
      && o.calls == charge.calls
      && (charge.error.Some? ==> o.result == Failure(charge.error.value))
      && (charge.error.None? ==> o.result.Success?)
    ensures a.kind == PLACE && o.result.Success? ==>
      o.result.delta.Added? && |o.result.delta.added| == 1 && a.payload.templateId in s.registry
    ensures a.kind == PLACE && o.result.Success? && o.result.delta.Added? && |o.result.delta.added| == 1 &&
            a.payload.templateId in s.registry ==>
      var t := s.registry[a.payload.templateId];
      var b := o.result.delta.added[0];
      && o.result.delta == Added([b]) && o.result.events == [BuildingPlaced(b)]
      && b.ownerId == userId && b.defId == t.id && b.pos == a.payload.origin && b.level == 1
      && b.meta == Meta(Some(t.w), Some(t.h))
      && (WellFormed(s.grid) ==> b.id !in s.grid.byId)
      && o.sys.grid.byId == s.grid.byId[b.id := b]
      && o.sys.grid.nextIdCounter == s.grid.nextIdCounter + 1
      && (forall c :: Covers(b, c) ==> c in o.sys.grid.occupancy && o.sys.grid.occupancy[c] == b.id)
      && (forall c :: !Covers(b, c) ==>
            && (c in o.sys.grid.occupancy <==> c in s.grid.occupancy)
            && (c in s.grid.occupancy ==> o.sys.grid.occupancy[c] == s.grid.occupancy[c]))
      && o.sys.grid == Place(s.grid, userId, t.id, a.payload.origin, t.w, t.h, a.payload.rotation, now, stamp).grid
    // removal
    ensures a.kind == REMOVE ==>
      var bid := a.payload.buildingId;
      && o.calls == []
      && (!CanRemove(s.grid, userId, bid) ==> o.result == Failure("CANNOT_REMOVE"))
      && (CanRemove(s.grid, userId, bid) ==>
            && o.result == Success(Removed([bid]), [BuildingRemoved(bid, Some(s.grid.byId[bid].pos))], now)
            && Remove(s.grid, userId, bid) == Ok(o.sys.grid)
            && bid !in o.sys.grid.byId)
    // upgrade
    ensures a.kind == UPGRADE && a.payload.buildingId !in s.grid.byId ==> o.result == Failure("NOT_FOUND") && o.calls == []
    ensures a.kind == UPGRADE && a.payload.buildingId in s.grid.byId ==>
      var b := s.grid.byId[a.payload.buildingId];
      && (b.id !in s.registry ==> o.result == Failure("INVALID_TEMPLATE_ON_BUILDING") && o.calls == [])
      && (b.id in s.registry ==>
            var charge := ChargeCost(s.checker, s.applier, userId, UpgradePortCost(s.registry[b.id], b.level));
            && o.calls == charge.calls
            && (charge.error.Some? ==> o.result == Failure(charge.error.value))
            && (charge.error.None? && b.ownerId != userId ==> o.result == Thrown("cannot_upgrade"))
            && (charge.error.None? && b.ownerId == userId ==> o.result.Success?))
    ensures a.kind == UPGRADE && o.result.Success? ==>
      o.result.delta.Updated? && |o.result.delta.updated| == 1
    ensures a.kind == UPGRADE && o.result.Success? && o.result.delta.Updated? && |o.result.delta.updated| == 1 ==>
      var bid := a.payload.buildingId;
      var b := o.result.delta.updated[0];
      && bid in s.grid.byId && b == s.grid.byId[bid].(level := b.level)
      && (s.grid.byId[bid].level != 0 ==> b.level == s.grid.byId[bid].level + 1)
      && (s.grid.byId[bid].level == 0 ==> b.level == 2)
      && o.result.delta == Updated([b]) && o.result.events == [BuildingUpgraded(b)]
      && o.sys.grid == s.grid.(byId := s.grid.byId[bid := b])
  {
    if a.kind == PLACE then
      match Get(s.registry, a.payload.templateId)
      case None => Applied(s, Failure("INVALID_TEMPLATE"), [])
      case Some(t) =>
        var charge := ChargeCost(s.checker, s.applier, userId, PlaceCost(t));
        if charge.error.Some? then Applied(s, Failure(charge.error.value), charge.calls)
        else
          var p := Place(s.grid, userId, t.id, a.payload.origin, t.w, t.h, a.payload.rotation, now, stamp);
          Applied(s.(grid := p.grid), Success(Added([p.building]), [BuildingPlaced(p.building)], now), charge.calls)
    else if a.kind == REMOVE then
      var bid := a.payload.buildingId;
      if !CanRemove(s.grid, userId, bid) then Applied(s, Failure("CANNOT_REMOVE"), [])
      else
        var removed := GetBuilding(s.grid, bid);
        var g' := Remove(s.grid, userId, bid).value;
        Applied(s.(grid := g'),
                Success(Removed([bid]), [BuildingRemoved(bid, Some(removed.value.pos))], now), [])
    else if a.kind == UPGRADE then
      match GetBuilding(s.grid, a.payload.buildingId)
      case None => Applied(s, Failure("NOT_FOUND"), [])
      case Some(b) =>
        match Get(s.registry, b.id)
        case None => Applied(s, Failure("INVALID_TEMPLATE_ON_BUILDING"), [])
        case Some(t) =>
          var charge := ChargeCost(s.checker, s.applier, userId, UpgradePortCost(t, b.level));
          if charge.error.Some? then Applied(s, Failure(charge.error.value), charge.calls)
          else
            match Upgrade(s.grid, userId, a.payload.buildingId)
            case Err(msg) => Applied(s, Thrown(msg), charge.calls)
            case Ok(u) =>
              Applied(s.(grid := u.grid), Success(Updated([u.building]), [BuildingUpgraded(u.building)], now), charge.calls)
    else Applied(s, Failure("UNHANDLED_ACTION_IN_APPLY"), [])
  }

  /** An action that validated, applied to the same state, keeps the grid
      index well formed. */
  lemma ValidatedApplyPreservesWellFormed(s: System, a: Action, userId: string, now: int, stamp: string)
    requires WellFormed(s.grid)
    requires ValidateAction(s, Some(a), userId).Accept?
    ensures WellFormed(ApplyAction(s, a, userId, now, stamp).sys.grid)
  {
    var o := ApplyAction(s, a, userId, now, stamp);
    if o.result.Success? {
      if a.kind == PLACE {
        var t := s.registry[a.payload.templateId];
        PlacePreservesWellFormed(s.grid, userId, t.id, a.payload.origin, t.w, t.h, s.bounds,
                                 a.payload.rotation, now, stamp);
      } else {
        RemovePreservesWellFormed(s.grid, userId, a.payload.buildingId);
      }
    }
  }

  /** Removals and upgrades keep the index well formed even unvalidated. */
  lemma RemoveOrUpgradePreservesWellFormed(s: System, a: Action, userId: string, now: int, stamp: string)
    requires WellFormed(s.grid) && a.kind in {REMOVE, UPGRADE}
    ensures WellFormed(ApplyAction(s, a, userId, now, stamp).sys.grid)
  {
    var o := ApplyAction(s, a, userId, now, stamp);
    if o.result.Success? {
      if a.kind == REMOVE {
        RemovePreservesWellFormed(s.grid, userId, a.payload.buildingId);
      } else {
        UpgradePreservesWellFormed(s.grid, userId, a.payload.buildingId);
      }
    }
  }

  /** A successful placement adds exactly one building. */
  lemma PlaceAddsOneBuilding(s: System, a: Action, userId: string, now: int, stamp: string)
    requires WellFormed(s.grid) && a.kind == PLACE
    requires ApplyAction(s, a, userId, now, stamp).result.Success?
    ensures |ApplyAction(s, a, userId, now, stamp).sys.grid.byId| == |s.grid.byId| + 1
  {
  }

  /** Upgrades never pass validation, though `ApplyAction` handles them. */
  lemma UpgradeNeverValidates(s: System, p: Payload, userId: string)
    ensures ValidateAction(s, Some(Action(UPGRADE, p)), userId).Reject?
  {
  }

  /** `ApplyAction` looks the upgrade template up by the building's own id,
      never by its template id: with the default registry every building the
      index minted fails with INVALID_TEMPLATE_ON_BUILDING. */
  lemma UpgradeWithDefaultsFails(s: System, p: Payload, userId: string, now: int, stamp: string)
    requires WellFormed(s.grid) && s.registry == CreateRegistry(None)
    requires p.buildingId in s.grid.byId
    ensures ApplyAction(s, Action(UPGRADE, p), userId, now, stamp).result == Failure("INVALID_TEMPLATE_ON_BUILDING")
  {
    var bid := p.buildingId;
    assert s.grid.byId[bid].id == bid;
    assert CounterOf(bid).Some?;
    assert bid[..2] == "b_";
    assert bid[0] == 'b' && bid[1] == '_';
    assert "house"[0] == 'h' && "barn"[1] == 'a';
  }
}

=== FILE: crop_def.dfy ===
/** Crop definitions: validation of a raw definition and the normalised
    definition built from a valid one, whose per-stage arrays always have
    one entry per growth stage. */
module CropDefs {
  import opened Results
  import opened Json

  datatype Yield = Yield(min: Number, max: Number)

  datatype CropDef = CropDef(
    id: string,
    name: Value,
    seasons: Value,
    growthStages: nat,
    growthTimesSeconds: seq<Number>,
    waterRequiredPerStage: seq<Number>,
    baseGrowthSeconds: Value,
    yieldRange: Yield,
    sellPrice: Number,
    seedCost: Number,
    diseaseChancePerStage: seq<Number>,
    harvestRequiresTool: bool,
    tags: Value,
    raw: map<string, Value>)

  /** The validation failures, one per message the source can report. */
  datatype Problem =
    | NotObject | BadId | BadStages
    | TimesNotArray | WaterNotArray | DiseaseNotArray
    | TimesLength | WaterLength | DiseaseLength

  const MUST_BE_ARRAY := " must be array"
  const LENGTH_MUST_MATCH := " length must equal growthStages"

  function Message(p: Problem): string {
    match p
    case NotObject => "crop definition must be object"
    case BadId => "id is required and must be string"
    case BadStages => "growthStages must be integer >= 1"
    case TimesNotArray => "growthTimesSeconds" + MUST_BE_ARRAY
    case WaterNotArray => "waterRequiredPerStage" + MUST_BE_ARRAY
    case DiseaseNotArray => "diseaseChancePerStage" + MUST_BE_ARRAY
    case TimesLength => "growthTimesSeconds" + LENGTH_MUST_MATCH
    case WaterLength => "waterRequiredPerStage" + LENGTH_MUST_MATCH
    case DiseaseLength => "diseaseChancePerStage" + LENGTH_MUST_MATCH
  }

  predicate StagesFieldOk(raw: Value) {
    var gs := Field(raw, "growthStages");
    gs.Undefined? || (IsInteger(gs) && gs.n >= 1.0)
  }

  predicate ArrayIfPresent(raw: Value, key: string) {
    !Truthy(Field(raw, key)) || Field(raw, key).Arr?
  }

  /** The stage count the length checks compare against:
      `growthStages ?? growthTimesSeconds?.length`. */
  function DeclaredStages(raw: Value): Value {
    Coalesce(Field(raw, "growthStages"), Length(Field(raw, "growthTimesSeconds")))
  }

  /** A per-stage array passes the length check when there is no stage
      count to compare with, no array, or the lengths agree. Without a
      `growthStages`, the stage count is the value read from
      `growthTimesSeconds.length` itself, so the growth-time check compares
      that value with itself and passes, whatever it is. */
  predicate LengthOk(raw: Value, key: string) {
    var stages := DeclaredStages(raw);
    var a := Field(raw, key);
    || !Truthy(stages) || !Truthy(a)
    || (key == "growthTimesSeconds" && Nullish(Field(raw, "growthStages")))
    || StrictlyEqual(Length(a), stages)
  }

  /** Whether `raw`, an object, has problem `p`. */
  predicate Has(raw: Value, p: Problem) {
    match p
    case NotObject => false
    case BadId => !(Truthy(Field(raw, "id")) && Field(raw, "id").Str?)
    case BadStages => !StagesFieldOk(raw)
    case TimesNotArray => !ArrayIfPresent(raw, "growthTimesSeconds")
    case WaterNotArray => !ArrayIfPresent(raw, "waterRequiredPerStage")
    case DiseaseNotArray => !ArrayIfPresent(raw, "diseaseChancePerStage")
    case TimesLength => !LengthOk(raw, "growthTimesSeconds")
    case WaterLength => !LengthOk(raw, "waterRequiredPerStage")
    case DiseaseLength => !LengthOk(raw, "diseaseChancePerStage")
  }

  /** The position of each problem in the order the source checks for it. */
  function Rank(p: Problem): nat {
    match p
    case NotObject => 0
    case BadId => 1
    case BadStages => 2
    case TimesNotArray => 3
    case WaterNotArray => 4
    case DiseaseNotArray => 5
    case TimesLength => 6
    case WaterLength => 7
    case DiseaseLength => 8
  }

  /** Listed in check order, hence each at most once. */
  predicate InCheckOrder(ps: seq<Problem>) {
    forall i, j :: 0 <= i < j < |ps| ==> Rank(ps[i]) < Rank(ps[j])
  }

  /** The checks of an object, in the order the source performs them. */
  const CheckOrder: seq<Problem> := [
    BadId, BadStages, TimesNotArray, WaterNotArray, DiseaseNotArray,
    TimesLength, WaterLength, DiseaseLength]

  /** The entries of `checks` that `raw` fails, in order. */
  function Failing(raw: Value, checks: seq<Problem>): (ps: seq<Problem>)
    ensures forall p :: p in ps <==> p in checks && Has(raw, p)
  {
    if |checks| == 0 then []
    else
      var rest := Failing(raw, checks[1..]);
      assert forall p :: p in checks <==> p == checks[0] || p in checks[1..];
      if Has(raw, checks[0]) then [checks[0]] + rest else rest
  }

  /** The tail of a list in check order is in check order, after its head. */
  lemma TailInCheckOrder(ps: seq<Problem>)
    requires |ps| > 0 && InCheckOrder(ps)
    ensures InCheckOrder(ps[1..])
    ensures forall p :: p in ps[1..] ==> Rank(ps[0]) < Rank(p)
  {
    var tail := ps[1..];
    forall i, j | 0 <= i < j < |tail|
      ensures Rank(tail[i]) < Rank(tail[j])
    {
      assert tail[i] == ps[i + 1] && tail[j] == ps[j + 1];
    }
    forall p | p in tail
      ensures Rank(ps[0]) < Rank(p)
    {
      var k :| 0 <= k < |tail| && tail[k] == p;
      assert ps[k + 1] == p;
    }
  }

  /** A head ranked below everything after it extends a list in check order. */
  lemma ConsInCheckOrder(p: Problem, rest: seq<Problem>)
    requires InCheckOrder(rest) && forall q :: q in rest ==> Rank(p) < Rank(q)
    ensures InCheckOrder([p] + rest)
  {
    var ps := [p] + rest;
    forall i, j | 0 <= i < j < |ps|
      ensures Rank(ps[i]) < Rank(ps[j])
    {
      assert ps[j] == rest[j - 1] && rest[j - 1] in rest;
      if i > 0 {
        assert ps[i] == rest[i - 1];
      }
    }
  }

  /** Filtering keeps the order of the checks. */
  lemma {:induction false} FailingInOrder(raw: Value, checks: seq<Problem>)
    requires InCheckOrder(checks)
    ensures InCheckOrder(Failing(raw, checks))
  {
    if |checks| > 0 {
      TailInCheckOrder(checks);
      FailingInOrder(raw, checks[1..]);
      var rest := Failing(raw, checks[1..]);
      if Has(raw, checks[0]) {
        ConsInCheckOrder(checks[0], rest);
      }
    }
  }

  lemma HeadIsMember(s: seq<Problem>)
    ensures |s| > 0 ==> s[0] in s
  {
  }

  /** Two lists in check order with the same members are the same list. */
  lemma {:induction false} InCheckOrderUnique(a: seq<Problem>, b: seq<Problem>)
    requires InCheckOrder(a) && InCheckOrder(b)
    requires forall p :: p in a <==> p in b
    ensures a == b
  {
    if |a| == 0 {
      HeadIsMember(b);
    } else {
      assert a[0] in b;
      assert |b| > 0;
      assert b[0] in a;
      TailInCheckOrder(a);
      TailInCheckOrder(b);
      var a', b' := a[1..], b[1..];
      assert a == [a[0]] + a' && b == [b[0]] + b';
      assert Rank(a[0]) <= Rank(b[0]);
      assert Rank(b[0]) <= Rank(a[0]);
      assert a[0] == b[0];
      forall p
        ensures p in a' <==> p in b'
      {
        assert p in a' ==> p in b && p != b[0];
        assert p in b' ==> p in a && p != a[0];
      }
      InCheckOrderUnique(a', b');
    }
  }

  /** Checks that all pass leave nothing failing. */
  lemma {:induction false} NoFailures(raw: Value, checks: seq<Problem>)
    requires forall p :: p in checks ==> !Has(raw, p)
    ensures Failing(raw, checks) == []
  {
    if |checks| > 0 {
      assert checks[0] in checks;
      assert forall p :: p in checks[1..] ==> p in checks;
      NoFailures(raw, checks[1..]);
    }
  }

  /** The problems found in a raw crop definition: a non-object has exactly
      one; an object has exactly the problems it has, in check order. */
  function Problems(raw: Value): (ps: seq<Problem>)
    ensures !Truthy(raw) || !IsObjectType(raw) ==> ps == [NotObject]
    ensures Truthy(raw) && IsObjectType(raw) ==> forall p :: p in ps <==> Has(raw, p)
    ensures InCheckOrder(ps)
  {
    if !Truthy(raw) || !IsObjectType(raw) then [NotObject]
    else
      FailingInOrder(raw, CheckOrder);
      Failing(raw, CheckOrder)
  }

  /** The contract of `Problems` leaves no choice: any list in check order
      holding exactly the problems of an object is that list. */
  lemma ProblemsDetermined(raw: Value, ps: seq<Problem>)
    requires Truthy(raw) && IsObjectType(raw)
    requires InCheckOrder(ps) && forall p :: p in ps <==> Has(raw, p)
    ensures ps == Problems(raw)
  {
    InCheckOrderUnique(ps, Problems(raw));
  }

  /** The length and first letter of each message, which tell them apart. */
  function Signature(p: Problem): (int, char) {
    match p
    case NotObject => (30, 'c')
    case BadId => (33, 'i')
    case BadStages => (33, 'g')
    case TimesNotArray => (32, 'g')
    case WaterNotArray => (35, 'w')
    case DiseaseNotArray => (35, 'd')
    case TimesLength => (49, 'g')
    case WaterLength => (52, 'w')
    case DiseaseLength => (52, 'd')
  }

  lemma MessageSignature(p: Problem)
    ensures |Message(p)| == Signature(p).0 && Message(p)[0] == Signature(p).1
  {
    match p
    case NotObject =>
    case BadId =>
    case BadStages =>
    case TimesNotArray =>
    case WaterNotArray =>
    case DiseaseNotArray =>
    case TimesLength =>
    case WaterLength =>
    case DiseaseLength =>
  }

  /** Different problems are reported with different messages. */
  lemma MessageInjective(p: Problem, q: Problem)
    ensures Message(p) == Message(q) ==> p == q
  {
    MessageSignature(p);
    MessageSignature(q);
  }

  /** The error messages the source returns, one per problem in check order:
      an object's list names exactly its failing checks, each once. */
  function ValidateRaw(raw: Value): (errs: seq<string>)
    ensures |errs| == |Problems(raw)|
    ensures forall i :: 0 <= i < |errs| ==> errs[i] == Message(Problems(raw)[i])
    ensures !Truthy(raw) || !IsObjectType(raw) ==> errs == [Message(NotObject)]
    ensures Truthy(raw) && IsObjectType(raw) ==> forall p :: Message(p) in errs <==> Has(raw, p)
    ensures forall i, j :: 0 <= i < j < |errs| ==> errs[i] != errs[j]
  {
    var ps := Problems(raw);
    var errs := seq(|ps|, i requires 0 <= i < |ps| => Message(ps[i]));
    forall p, q {
      MessageInjective(p, q);
    }
    assert forall p :: Message(p) in errs <==> p in ps by {
      forall p
        ensures Message(p) in errs <==> p in ps
      {
        if p in ps {
          var k :| 0 <= k < |ps| && ps[k] == p;
          assert errs[k] == Message(p);
        }
      }
    }
    errs
  }

  predicate Valid(raw: Value) {
    ValidateRaw(raw) == []
  }

  /** A valid definition is an object with none of the problems. */
  lemma ValidMeans(raw: Value)
    requires Valid(raw)
    ensures Truthy(raw) && IsObjectType(raw)
    ensures forall p :: !Has(raw, p)
  {
    assert |Problems(raw)| == 0;
  }

  /** `Math.max(1, Math.floor(growthStages ?? (growthTimesSeconds?.length ?? 1)))`. */
  function StageCount(raw: Value): Number {
    var given := Coalesce(Field(raw, "growthStages"), Coalesce(Length(Field(raw, "growthTimesSeconds")), Num(1.0)));
    AtLeast(1.0, Floor(ToNumber(given)))
  }

  /** On a valid definition the stage count is a whole number of at least 1. */
  function Stages(raw: Value): (n: nat)
    requires Valid(raw)
    ensures n >= 1 && StageCount(raw) == Some(n as real)
    ensures Field(raw, "growthStages").Num? ==> n as real == Field(raw, "growthStages").n
    ensures Field(raw, "growthStages").Undefined? && Field(raw, "growthTimesSeconds").Arr? ==>
      n == if |Field(raw, "growthTimesSeconds").items| == 0 then 1 else |Field(raw, "growthTimesSeconds").items|
  {
    ValidMeans(raw);
    assert !Has(raw, BadStages) && !Has(raw, TimesNotArray);
    var gs := Field(raw, "growthStages");
    var times := Field(raw, "growthTimesSeconds");
    var given := Coalesce(gs, Coalesce(Length(times), Num(1.0)));
    assert given.Num? by {
      if gs.Undefined? {
        assert !Truthy(times) || times.Arr?;
        assert Length(times).Num? || Length(times).Undefined?;
      }
    }
    var c := StageCount(raw);
    assert c.Some?;
    var n := c.value.Floor;
    assert n as real == c.value;
    n
  }

  /** The stage-indexed array under `key` when it is an array of exactly
      `n` entries. */
  predicate Matches(raw: Value, key: string, n: nat) {
    Field(raw, key).Arr? && |Field(raw, key).items| == n
  }

  function Fill(n: nat, v: Number): (r: seq<Number>)
    ensures |r| == n && forall i :: 0 <= i < n ==> r[i] == v
  {
    seq(n, _ => v)
  }

  function GrowthTimes(raw: Value, n: nat): (r: seq<Number>)
    ensures |r| == n
    ensures Matches(raw, "growthTimesSeconds", n) ==>
      forall i :: 0 <= i < n ==> r[i] == AtLeast(1.0, Floor(ToNumber(Field(raw, "growthTimesSeconds").items[i])))
    ensures !Matches(raw, "growthTimesSeconds", n) && Field(raw, "baseGrowthSeconds").Num? && n > 0 ==>
      forall i :: 0 <= i < n ==> r[i] == AtLeast(1.0, Some((Field(raw, "baseGrowthSeconds").n / n as real).Floor as real))
    ensures !Matches(raw, "growthTimesSeconds", n) && !Field(raw, "baseGrowthSeconds").Num? ==>
      forall i :: 0 <= i < n ==> r[i] == Some(60.0)
  {
    var times := Field(raw, "growthTimesSeconds");
    var base := Field(raw, "baseGrowthSeconds");
    if Matches(raw, "growthTimesSeconds", n) then
      seq(n, i requires 0 <= i < n => AtLeast(1.0, Floor(ToNumber(times.items[i]))))
    else if base.Num? && n > 0 then
      Fill(n, AtLeast(1.0, Some((base.n / n as real).Floor as real)))
    else if base.Num? then []
    else Fill(n, Some(60.0))
  }

  /** A stage-indexed array scaled into [floor, ...) when it matches, else
      filled with `fallback`. */
  function PerStage(raw: Value, key: string, n: nat, floor: real, fallback: real): (r: seq<Number>)
    ensures |r| == n
    ensures Matches(raw, key, n) ==> forall i :: 0 <= i < n ==> r[i] == AtLeast(floor, ToNumber(Field(raw, key).items[i]))
    ensures !Matches(raw, key, n) ==> forall i :: 0 <= i < n ==> r[i] == Some(fallback)
  {
    if Matches(raw, key, n) then
      seq(n, i requires 0 <= i < n => AtLeast(floor, ToNumber(Field(raw, key).items[i])))
    else Fill(n, Some(fallback))
  }

  const DefaultYield := Obj(map["min" := Num(1.0), "max" := Num(1.0)])

  /** A numeric yield is used as both bounds, unrounded; otherwise each
      bound is floored and clamped at 0, min defaulting to 1 and max to min. */
  function NormalizeYield(y: Value): (r: Yield)
    ensures y.Num? ==> r == Yield(Some(y.n), Some(y.n))
    ensures !y.Num? ==> (r.min.Some? ==> r.min.value >= 0.0) && (r.max.Some? ==> r.max.value >= 0.0)
    ensures Nullish(y) ==> r == Yield(Some(1.0), Some(1.0))
    ensures !y.Num? && Nullish(Field(y, "min")) ==> r.min == Some(1.0)
    ensures !y.Num? && Nullish(Field(y, "max")) ==> r.max == r.min
    ensures !y.Num? && !Nullish(Field(y, "min")) ==> r.min == AtLeast(0.0, Floor(ToNumber(Field(y, "min"))))
    ensures !y.Num? && !Nullish(Field(y, "max")) ==> r.max == AtLeast(0.0, Floor(ToNumber(Field(y, "max"))))
    ensures !y.Num? && Field(y, "min").Num? ==>
      r.min == Some(if Field(y, "min").n < 0.0 then 0.0 else Field(y, "min").n.Floor as real)
  {
    if y.Num? then Yield(Some(y.n), Some(y.n))
    else
      var v := Coalesce(y, DefaultYield);
      var lo := Coalesce(Field(v, "min"), Num(1.0));
      var hi := Coalesce(Field(v, "max"), lo);
      Yield(AtLeast(0.0, Floor(ToNumber(lo))), AtLeast(0.0, Floor(ToNumber(hi))))
  }

  /** The definition the private constructor builds from `raw`: the id, the
      `??` defaults of the plain fields, the stage count, and each per-stage
      array and the yield normalised from the raw fields. */
  predicate BuiltFrom(raw: Value, d: CropDef) {
    && Valid(raw) && raw.Obj? && d.raw == raw.fields
    && Str(d.id) == Field(raw, "id")
    && d.name == (if Nullish(Field(raw, "name")) then Field(raw, "id") else Field(raw, "name"))
    && d.seasons == (if Nullish(Field(raw, "seasons")) then Arr([]) else Field(raw, "seasons"))
    && d.growthStages == Stages(raw)
    && d.growthTimesSeconds == GrowthTimes(raw, d.growthStages)
    && d.waterRequiredPerStage == PerStage(raw, "waterRequiredPerStage", d.growthStages, 0.0, 1.0)
    && d.diseaseChancePerStage == PerStage(raw, "diseaseChancePerStage", d.growthStages, 0.0, 0.0)
    && d.baseGrowthSeconds == Field(raw, "baseGrowthSeconds")
    && d.yieldRange == NormalizeYield(Field(raw, "yield"))
    && d.sellPrice == (if Nullish(Field(raw, "sellPrice")) then Some(0.0) else ToNumber(Field(raw, "sellPrice")))
    && d.seedCost == (if Nullish(Field(raw, "seedCost")) then Some(0.0) else ToNumber(Field(raw, "seedCost")))
    && d.harvestRequiresTool == Truthy(Field(raw, "harvestRequiresTool"))
    && d.tags == (if Nullish(Field(raw, "tags")) then Arr([]) else Field(raw, "tags"))
  }

  /** The private constructor applied to a validated definition. */
  function Build(raw: Value): (d: CropDef)
    requires Valid(raw)
    ensures BuiltFrom(raw, d)
    ensures d.growthStages >= 1
    ensures |d.growthTimesSeconds| == d.growthStages
    ensures |d.waterRequiredPerStage| == d.growthStages
    ensures |d.diseaseChancePerStage| == d.growthStages
    ensures forall i :: 0 <= i < d.growthStages && d.growthTimesSeconds[i].Some? ==> d.growthTimesSeconds[i].value >= 1.0
    ensures forall i :: 0 <= i < d.growthStages && d.waterRequiredPerStage[i].Some? ==> d.waterRequiredPerStage[i].value >= 0.0
    ensures !Matches(raw, "waterRequiredPerStage", d.growthStages) ==>
      forall i :: 0 <= i < d.growthStages ==> d.waterRequiredPerStage[i] == Some(1.0)
    ensures !Matches(raw, "diseaseChancePerStage", d.growthStages) ==>
      forall i :: 0 <= i < d.growthStages ==> d.diseaseChancePerStage[i] == Some(0.0)
  {
    var n := Stages(raw);
    CropDef(
      Field(raw, "id").s,
      Coalesce(Field(raw, "name"), Field(raw, "id")),
      Coalesce(Field(raw, "seasons"), Arr([])),
      n,
      GrowthTimes(raw, n),
      PerStage(raw, "waterRequiredPerStage", n, 0.0, 1.0),
      Field(raw, "baseGrowthSeconds"),
      NormalizeYield(Field(raw, "yield")),
      ToNumber(Coalesce(Field(raw, "sellPrice"), Num(0.0))),
      ToNumber(Coalesce(Field(raw, "seedCost"), Num(0.0))),
      PerStage(raw, "diseaseChancePerStage", n, 0.0, 0.0),
      Truthy(Coalesce(Field(raw, "harvestRequiresTool"), Bool(false))),
      Coalesce(Field(raw, "tags"), Arr([])),
      raw.fields)
  }

  function Join(parts: seq<string>, sep: string): string {
    if |parts| == 0 then "" else if |parts| == 1 then parts[0] else parts[0] + sep + Join(parts[1..], sep)
  }

  function IdText(raw: Value): string {
    match Field(raw, "id")
    case Str(s) => s
    case Bool(b) => if b then "true" else "false"
    case _ => ""
  }

  /** Validates, then normalises; fails exactly when validation reports errors. */
  function FromJSON(raw: Value): (r: Result<CropDef>)
    ensures r.Err? <==> ValidateRaw(raw) != []
    ensures r.Err? ==> r.message == "Invalid CropDef " + IdText(raw) + ": " + Join(ValidateRaw(raw), "; ")
    ensures r.Ok? ==> raw.Obj? && r.value.raw == raw.fields && Str(r.value.id) == Field(raw, "id")
    ensures r.Ok? ==> r.value.growthStages >= 1 && |r.value.growthTimesSeconds| == r.value.growthStages
    ensures r.Ok? ==> BuiltFrom(raw, r.value)
  {
    var errs := ValidateRaw(raw);
    if errs != [] then Err("Invalid CropDef " + IdText(raw) + ": " + Join(errs, "; "))
    else Ok(Build(raw))
  }

  function ToJSON(d: CropDef): Value {
    Obj(d.raw)
  }

  /** Serialising a definition built from `raw` gives back `raw`. */
  lemma RoundTrip(raw: Value)
    requires FromJSON(raw).Ok?
    ensures ToJSON(FromJSON(raw).value) == raw
  {
  }

  /** When a valid definition gives an explicit stage count, every per-stage
      array it supplies has that many entries, so normalisation keeps it. */
  lemma ValidArraysAreKept(raw: Value, key: string)
    requires Valid(raw) && Field(raw, "growthStages").Num?
    requires key in {"growthTimesSeconds", "waterRequiredPerStage", "diseaseChancePerStage"}
    requires Field(raw, key).Arr?
    ensures Matches(raw, key, Stages(raw))
  {
    ValidMeans(raw);
    assert key == "growthTimesSeconds" ==> !Has(raw, TimesLength);
    assert key == "waterRequiredPerStage" ==> !Has(raw, WaterLength);
    assert key == "diseaseChancePerStage" ==> !Has(raw, DiseaseLength);
    assert LengthOk(raw, key);
    assert DeclaredStages(raw) == Field(raw, "growthStages");
  }

  /** With neither a stage count nor growth times, validation has nothing to
      compare lengths with: a water array of any length other than one
      passes, and normalisation then replaces it by the single default entry. */
  lemma UncheckedWaterIsDropped(raw: Value)
    requires raw.Obj? && Field(raw, "id").Str? && Field(raw, "id").s != ""
    requires Field(raw, "growthStages").Undefined?
    requires Field(raw, "growthTimesSeconds").Undefined? && Field(raw, "diseaseChancePerStage").Undefined?
    requires Field(raw, "waterRequiredPerStage").Arr? && |Field(raw, "waterRequiredPerStage").items| != 1
    ensures Valid(raw) && Build(raw).waterRequiredPerStage == [Some(1.0)]
  {
    assert DeclaredStages(raw) == Undefined;
    forall p: Problem
      ensures !Has(raw, p)
    {
    }
    NoFailures(raw, CheckOrder);
    var n := Stages(raw);
    assert n == 1;
    assert !Matches(raw, "waterRequiredPerStage", n);
    var d := Build(raw);
    assert |d.waterRequiredPerStage| == 1 && d.waterRequiredPerStage[0] == Some(1.0);
  }

  /** Without a stage count, the growth-time length check never fires. */
  lemma GrowthTimesLengthNeedsStages(raw: Value)
    requires Nullish(Field(raw, "growthStages"))
    ensures !Has(raw, TimesLength)
  {
  }

  /** A growth-time object whose `length` is itself an object is reported
      once, as not being an array: its length is compared with itself. */
  lemma ObjectGrowthTimesReportedOnce(id: string)
    requires |id| > 0
    ensures ValidateRaw(Obj(map["id" := Str(id), "growthTimesSeconds" := Obj(map["length" := Obj(map[])])]))
      == [Message(TimesNotArray)]
  {
    var raw := Obj(map["id" := Str(id), "growthTimesSeconds" := Obj(map["length" := Obj(map[])])]);
    assert Field(raw, "id") == Str(id) && Field(raw, "growthStages") == Undefined;
    assert Field(raw, "waterRequiredPerStage") == Undefined && Field(raw, "diseaseChancePerStage") == Undefined;
    assert Field(raw, "growthTimesSeconds") == Obj(map["length" := Obj(map[])]);
    forall p: Problem
      ensures p in [TimesNotArray] <==> Has(raw, p)
    {
    }
    ProblemsDetermined(raw, [TimesNotArray]);
  }
}

=== FILE: decimal.dfy ===
/** Decimal rendering of integers, as JavaScript's template literals print
    them, and the parser that reads the rendering back. */
module Decimal {

  predicate IsDigit(c: char) {
    '0' <= c <= '9'
  }

  predicate AllDigits(s: string) {
    forall i :: 0 <= i < |s| ==> IsDigit(s[i])
  }

  function DigitChar(d: nat): (c: char)
    requires d < 10
    ensures IsDigit(c)
  {
    ['0', '1', '2', '3', '4', '5', '6', '7', '8', '9'][d]
  }

  function DigitValue(c: char): nat
    requires IsDigit(c)
  {
    (c as int - '0' as int) as nat
  }

  /** `${n}` for a non-negative integer: no sign, no leading zeros. */
  function NatToString(n: nat): (s: string)
    ensures |s| > 0 && AllDigits(s)
  {
    if n < 10 then [DigitChar(n)] else NatToString(n / 10) + [DigitChar(n % 10)]
  }

  /** `${n}` for any integer. */
  function IntToString(n: int): (s: string)
    ensures |s| > 0
  {
    if n < 0 then "-" + NatToString(-n) else NatToString(n)
  }

  /** The value of a string of decimal digits. */
  function ParseNat(s: string): nat
    requires AllDigits(s)
  {
    if |s| == 0 then 0 else ParseNat(s[..|s| - 1]) * 10 + DigitValue(s[|s| - 1])
  }

  /** The number of leading decimal digits of `s`. */
  function DigitRun(s: string): (k: nat)
    ensures k <= |s|
    ensures AllDigits(s[..k])
    ensures k < |s| ==> !IsDigit(s[k])
  {
    if |s| == 0 || !IsDigit(s[0]) then 0
    else
      var k := 1 + DigitRun(s[1..]);
      assert s[..k] == [s[0]] + s[1..][..k - 1];
      k
  }

  lemma {:induction false} DigitCharValue(d: nat)
    requires d < 10
    ensures DigitValue(DigitChar(d)) == d
  {
  }

  /** Parsing a rendering gives back the number. */
  lemma {:induction false} ParseNatToString(n: nat)
    ensures ParseNat(NatToString(n)) == n
  {
    var s := NatToString(n);
    if n < 10 {
      DigitCharValue(n);
      assert s[..0] == [];
    } else {
      ParseNatToString(n / 10);
      DigitCharValue(n % 10);
      assert s[..|s| - 1] == NatToString(n / 10);
    }
  }

  /** Distinct numbers render differently. */
  lemma NatToStringInjective()
    ensures forall i: nat, j: nat :: NatToString(i) == NatToString(j) ==> i == j
  {
    forall i: nat, j: nat | NatToString(i) == NatToString(j)
      ensures i == j
    {
      ParseNatToString(i);
      ParseNatToString(j);
    }
  }

  /** The digit run of a digit string followed by a non-digit is that string. */
  lemma {:induction false} DigitRunStopsAtSeparator(d: string, sep: char, rest: string)
    requires AllDigits(d) && !IsDigit(sep)
    ensures DigitRun(d + [sep] + rest) == |d|
  {
    var s := d + [sep] + rest;
    if |d| == 0 {
      assert s[0] == sep;
    } else {
      assert s[0] == d[0];
      assert s[1..] == d[1..] + [sep] + rest;
      DigitRunStopsAtSeparator(d[1..], sep, rest);
    }
  }
}

=== FILE: envelope.dfy ===
/** Action envelopes: a client's action tag and payload wrapped with the
    context it was received in, plus a deduplication id and a priority. */
module Envelopes {
  import opened Results
  import Decimal

  /** Metadata values are kept as text; the model does not interpret them. */
  datatype ActionContext = ActionContext(
    clientId: string,
    userId: string,
    timestamp: int,
    metadata: Option<map<string, string>>)

  datatype EnvelopeOptions = EnvelopeOptions(actionId: Option<string>, priority: Option<int>)

  datatype Envelope<P> = Envelope(
    actionType: string,
    payload: P,
    ctx: ActionContext,
    actionId: string,
    priority: int)

  /** JavaScript's `s.substr(start, length)` for non-negative arguments: the
      `length` characters from `start` on, fewer where the string ends first,
      and none from a start past the end. */
  function Substr(s: string, start: nat, length: nat): (r: string)
    ensures start <= |s| ==> |r| == (if length < |s| - start then length else |s| - start)
    ensures start <= |s| ==> r == s[start..start + |r|]
    ensures start > |s| ==> r == ""
  {
    var from := if start < |s| then start else |s|;
    var to := if from + length < |s| then from + length else |s|;
    s[from..to]
  }

  /** The prefix a generated action id starts with. */
  function GeneratedIdPrefix(actionType: string, ctx: ActionContext): string {
    actionType + "_" + Decimal.IntToString(ctx.timestamp) + "_"
  }

  /** Wraps an action. A non-empty supplied id is kept; otherwise the id is
      generated from the tag, the context timestamp and nine characters of
      `random36`, the base-36 rendering of a random number ("0.xxxx"). A
      supplied non-zero priority is kept; otherwise the priority is 0. */
  function CreateActionEnvelope<P>(actionType: string, payload: P, ctx: ActionContext,
                                   options: Option<EnvelopeOptions>, random36: string): (e: Envelope<P>)
    ensures e.actionType == actionType && e.payload == payload && e.ctx == ctx
    ensures options.Some? && options.value.actionId.Some? && options.value.actionId.value != "" ==>
      e.actionId == options.value.actionId.value
    ensures !(options.Some? && options.value.actionId.Some? && options.value.actionId.value != "") ==>
      var prefix := GeneratedIdPrefix(actionType, ctx);
      prefix <= e.actionId && |e.actionId| <= |prefix| + 9
    ensures options.Some? && options.value.priority.Some? && options.value.priority.value != 0 ==>
      e.priority == options.value.priority.value
    ensures e.priority != 0 ==> options.Some? && options.value.priority == Some(e.priority)
  {
    var supplied := if options.Some? then options.value.actionId.GetOr("") else "";
    var id := if supplied != "" then supplied
              else GeneratedIdPrefix(actionType, ctx) + Substr(random36, 2, 9);
    var priority := if options.Some? then options.value.priority.GetOr(0) else 0;
    Envelope(actionType, payload, ctx, id, priority)
  }

  /** A context stamped with the clock reading `now`. */
  function CreateActionContext(clientId: string, userId: string, metadata: Option<map<string, string>>, now: int): (c: ActionContext)
    ensures c.clientId == clientId && c.userId == userId && c.metadata == metadata
    ensures c.timestamp == now
  {
    ActionContext(clientId, userId, now, metadata)
  }

  /** An envelope carries all it was created from: wrapping its tag, payload
      and context again with its own id and priority gives it back, whatever
      random text is drawn, so a resent envelope keeps its deduplication id. */
  lemma RewrapKeepsEnvelope<P>(e: Envelope<P>, random36: string)
    requires e.actionId != ""
    ensures CreateActionEnvelope(e.actionType, e.payload, e.ctx,
                                 Some(EnvelopeOptions(Some(e.actionId), Some(e.priority))), random36) == e
  {
  }

  /** A generated id starts with the tag and the clock reading the context
      was stamped with, so it is never empty. */
  lemma GeneratedIdCarriesTimestamp<P>(actionType: string, payload: P, clientId: string, userId: string,
                                       metadata: Option<map<string, string>>, now: int, random36: string)
    ensures var e := CreateActionEnvelope(actionType, payload, CreateActionContext(clientId, userId, metadata, now),
                                          None, random36);
      && actionType + "_" + Decimal.IntToString(now) + "_" <= e.actionId
      && e.actionId != "" && e.priority == 0
  {
  }
}

=== FILE: factories.dfy ===
/** The shared instance factories: fresh building and crop instances for a
    definition looked up by id. The clock and the uuid generator are
    parameters. */
module Factories {
  import opened Results
  import opened Json
  import opened Grid
  import BuildingDefs
  import CropDefs

  /** A placed building instance as the shared state schema stores it. */
  datatype BuildingInstance = BuildingInstance(
    id: string,
    defId: string,
    ownerId: Option<string>,
    pos: Pos,
    rotation: int,
    level: int,
    hp: Option<real>,
    createdAt: int,
    upgradedUntil: Option<int>,
    state: map<string, Value>,
    meta: map<string, Value>)

  datatype Disease = Disease(chance: real, flaggedAt: int)

  /** A planted crop; `nextStageAt` is `None` when the first growth time is
      missing or NaN. */
  datatype CropInstance = CropInstance(
    id: string,
    defId: string,
    ownerId: Option<string>,
    tile: Pos,
    plantedAt: int,
    growthStage: nat,
    nextStageAt: Number,
    wateredStages: seq<int>,
    fertilized: bool,
    disease: Option<Disease>,
    harvestReadyAt: Option<int>,
    lastUpdatedAt: int,
    extra: map<string, Value>)

  /** A new building instance at level 1, or an error naming an unknown
      definition. */
  function CreateBuildingInstance(defId: string, ownerId: Option<string>, pos: Pos,
                                  defMap: map<string, BuildingDefs.BuildingDef>,
                                  now: int, uuid: string): (r: Result<BuildingInstance>)
    ensures r.Err? <==> defId !in defMap
    ensures r.Err? ==> r.message == "Unknown building def " + defId
    ensures r.Ok? ==> (r.value.id == uuid && r.value.defId == defId
      && r.value.ownerId == ownerId && r.value.pos == pos)
    ensures r.Ok? ==> (r.value.level == 1 && r.value.rotation == 0 && r.value.createdAt == now
      && r.value.hp.None? && r.value.upgradedUntil.None?
      && r.value.state == map[] && r.value.meta == map[])
  {
    if defId !in defMap then Err("Unknown building def " + defId)
    else Ok(BuildingInstance(uuid, defId, ownerId, pos, 0, 1, None, now, None, map[], map[]))
  }

  /** `now + t * 1000` for the first growth time `t`; an empty array reads
      `undefined`, which gives NaN. */
  function FirstStageAt(times: seq<Number>, now: int): (at: Number)
    ensures |times| == 0 ==> at.None?
    ensures |times| > 0 ==> (at.None? <==> times[0].None?)
    ensures |times| > 0 && times[0].Some? ==> at.value == now as real + times[0].value * 1000.0
  {
    if |times| == 0 then None
    else match times[0]
      case None => None
      case Some(t) => Some(now as real + t * 1000.0)
  }

  /** A new crop at stage 0, or an error naming an unknown definition. */
  function CreateCropInstance(defId: string, ownerId: Option<string>, tile: Pos,
                              cropDefs: map<string, CropDefs.CropDef>,
                              now: int, uuid: string): (r: Result<CropInstance>)
    ensures r.Err? <==> defId !in cropDefs
    ensures r.Err? ==> r.message == "Unknown crop def " + defId
    ensures r.Ok? ==> (r.value.id == uuid && r.value.defId == defId
      && r.value.ownerId == ownerId && r.value.tile == tile)
    ensures r.Ok? ==> (r.value.growthStage == 0
      && r.value.nextStageAt == FirstStageAt(cropDefs[defId].growthTimesSeconds, now))
    ensures r.Ok? ==> (r.value.plantedAt == now && r.value.lastUpdatedAt == now
      && r.value.wateredStages == [] && !r.value.fertilized && r.value.disease.None?
      && r.value.harvestReadyAt.None? && r.value.extra == map[])
  {
    if defId !in cropDefs then Err("Unknown crop def " + defId)
    else
      var def := cropDefs[defId];
      Ok(CropInstance(uuid, defId, ownerId, tile, now, 0,
                      FirstStageAt(def.growthTimesSeconds, now),
                      [], false, None, None, now, map[]))
  }

  /** A crop planted from a definition that passed validation either has
      no known next stage (a NaN growth time) or reaches it at least one
      second after planting, since normalisation floors every growth time
      at one second and keeps at least one stage. */
  lemma {:induction false} ValidatedCropWaitsASecond(raw: Value, ownerId: Option<string>, tile: Pos, now: int, uuid: string)
    requires CropDefs.FromJSON(raw).Ok?
    ensures var def := CropDefs.FromJSON(raw).value;
      var r := CreateCropInstance(def.id, ownerId, tile, map[def.id := def], now, uuid);
      r.Ok? && (r.value.nextStageAt.Some? ==> r.value.nextStageAt.value >= now as real + 1000.0)
  {
    var def := CropDefs.FromJSON(raw).value;
    assert def == CropDefs.Build(raw);
    assert |def.growthTimesSeconds| >= 1;
    assert def.growthTimesSeconds[0].Some? ==> def.growthTimesSeconds[0].value >= 1.0;
  }

  /** Any definition that passed `fromJSON`, registered under its id, yields
      a level-1 instance of that definition. */
  lemma ValidatedBuildingInstantiates(raw: Value, ownerId: Option<string>, pos: Pos, now: int, uuid: string)
    requires BuildingDefs.FromJSON(raw).Ok?
    ensures var def := BuildingDefs.FromJSON(raw).value;
      var r := CreateBuildingInstance(def.id, ownerId, pos, map[def.id := def], now, uuid);
      && r.Ok? && Str(r.value.defId) == Field(raw, "id") && r.value.level == 1
  {
  }
}

=== FILE: grid.dfy ===
/** The grid occupancy index of the buildings domain (GridService): building
    records by id, a sparse map from cell to the id of the building covering
    it, and the counter that numbers new buildings. */
module Grid {
  import opened Results
  import Decimal

  /** A grid cell; the source keys cells by the string "x:y", which is
      injective on integer coordinates, so the model keys them by the pair. */
  datatype Pos = Pos(x: int, y: int)

  datatype Bounds = Bounds(width: int, height: int)

  /** The footprint cached on a building when it is placed; either dimension
      may be absent in a loaded snapshot. */
  datatype Meta = Meta(width: Option<int>, height: Option<int>)

  datatype Building = Building(
    id: string,
    defId: string,
    ownerId: string,
    pos: Pos,
    rotation: int,
    level: int,
    createdAt: int,
    meta: Meta)

  datatype GridState = GridState(
    byId: map<string, Building>,
    occupancy: map<Pos, string>,
    nextIdCounter: nat)

  /** The state a fresh index starts from. */
  const Empty := GridState(map[], map[], 1)

  // ---------------------------------------------------------------------------
  // Footprints
  // ---------------------------------------------------------------------------

  predicate InFootprint(c: Pos, origin: Pos, w: int, h: int) {
    origin.x <= c.x < origin.x + w && origin.y <= c.y < origin.y + h
  }

  function Column(x: int, y0: int, h: int): seq<Pos> {
    if h <= 0 then [] else seq(h, dy => Pos(x, y0 + dy))
  }

  /** The cells of a w-by-h footprint in the order the source enumerates them:
      dx outermost, dy innermost. */
  function CellsFor(origin: Pos, w: int, h: int): seq<Pos>
    decreases w
  {
    if w <= 0 then [] else CellsFor(origin, w - 1, h) + Column(origin.x + w - 1, origin.y, h)
  }

  lemma {:induction false} CellsForLength(origin: Pos, w: int, h: int)
    ensures |CellsFor(origin, w, h)| == if w <= 0 || h <= 0 then 0 else w * h
    decreases w
  {
    if w > 0 {
      CellsForLength(origin, w - 1, h);
      if h > 0 {
        assert (w - 1) * h + h == w * h;
      }
    }
  }

  /** The enumeration lists exactly the cells of the rectangle. */
  lemma {:induction false} CellsForMembership(origin: Pos, w: int, h: int)
    ensures forall c :: c in CellsFor(origin, w, h) <==> InFootprint(c, origin, w, h)
    decreases w
  {
    if w > 0 {
      CellsForMembership(origin, w - 1, h);
      var col := Column(origin.x + w - 1, origin.y, h);
      forall c | InFootprint(c, origin, w, h) && c.x == origin.x + w - 1
        ensures c in col
      {
        assert col[c.y - origin.y] == c;
      }
    }
  }

  /** No cell is listed twice. */
  lemma {:induction false} CellsForDistinct(origin: Pos, w: int, h: int)
    ensures forall i, j :: 0 <= i < j < |CellsFor(origin, w, h)| ==>
      CellsFor(origin, w, h)[i] != CellsFor(origin, w, h)[j]
    decreases w
  {
    if w > 0 {
      CellsForDistinct(origin, w - 1, h);
      CellsForMembership(origin, w - 1, h);
      var pre := CellsFor(origin, w - 1, h);
      var col := Column(origin.x + w - 1, origin.y, h);
      var all := CellsFor(origin, w, h);
      forall i, j | 0 <= i < j < |all|
        ensures all[i] != all[j]
      {
        if j >= |pre| && i < |pre| {
          assert all[i] == pre[i] && pre[i] in pre;
          assert all[j] == col[j - |pre|];
        }
      }
    }
  }

  /** A w-by-h footprint lists w*h pairwise-distinct cells, exactly the cells
      of the rectangle at `origin`. */
  lemma FootprintShape(origin: Pos, w: nat, h: nat)
    ensures |CellsFor(origin, w, h)| == w * h
    ensures forall i, j :: 0 <= i < j < |CellsFor(origin, w, h)| ==>
      CellsFor(origin, w, h)[i] != CellsFor(origin, w, h)[j]
    ensures forall c :: c in CellsFor(origin, w, h) <==> InFootprint(c, origin, w, h)
  {
    CellsForLength(origin, w, h);
    CellsForDistinct(origin, w, h);
    CellsForMembership(origin, w, h);
  }

  /** The dimensions `remove` reads from a stored building: a missing one is 1. */
  function Width(b: Building): int {
    b.meta.width.GetOr(1)
  }

  function Height(b: Building): int {
    b.meta.height.GetOr(1)
  }

  predicate Covers(b: Building, c: Pos) {
    InFootprint(c, b.pos, Width(b), Height(b))
  }

  // ---------------------------------------------------------------------------
  // Building ids "b_<counter>_<clock in base 36>"
  // ---------------------------------------------------------------------------

  function MakeId(counter: nat, stamp: string): string {
    "b_" + Decimal.NatToString(counter) + "_" + stamp
  }

  /** The counter an id was minted with, if it has the shape of a minted id. */
  function CounterOf(id: string): Option<nat> {
    if |id| < 2 || id[..2] != "b_" then None
    else
      var rest := id[2..];
      var k := Decimal.DigitRun(rest);
      if 0 < k < |rest| && rest[k] == '_' then Some(Decimal.ParseNat(rest[..k])) else None
  }

  /** A minted id carries its counter, so ids minted with different counters differ. */
  lemma CounterOfMakeId(counter: nat, stamp: string)
    ensures CounterOf(MakeId(counter, stamp)) == Some(counter)
  {
    var d := Decimal.NatToString(counter);
    var id := MakeId(counter, stamp);
    assert id[..2] == "b_";
    var rest := id[2..];
    assert rest == d + ['_'] + stamp;
    Decimal.DigitRunStopsAtSeparator(d, '_', stamp);
    assert rest[..|d|] == d;
    Decimal.ParseNatToString(counter);
  }

  // ---------------------------------------------------------------------------
  // The index invariant
  // ---------------------------------------------------------------------------

  /** Every record is filed under its own id. */
  ghost predicate IdsMatch(g: GridState) {
    forall id :: id in g.byId ==> g.byId[id].id == id
  }

  /** Every recorded id was minted with a counter below `nextIdCounter`. */
  ghost predicate IdsFresh(g: GridState) {
    forall id :: id in g.byId ==> CounterOf(id).Some? && CounterOf(id).value < g.nextIdCounter
  }

  /** Every occupied cell names a recorded building that covers it. */
  ghost predicate OccupancySound(g: GridState) {
    forall c :: c in g.occupancy ==> g.occupancy[c] in g.byId && Covers(g.byId[g.occupancy[c]], c)
  }

  /** Every cell a recorded building covers is occupied by that building. */
  ghost predicate OccupancyComplete(g: GridState) {
    forall id, c :: id in g.byId && Covers(g.byId[id], c) ==> c in g.occupancy && g.occupancy[c] == id
  }

  /** The index invariant: records are filed under their own, fresh ids, and
      the occupancy map is exactly the union of the recorded buildings'
      footprints, each cell naming the one building that covers it. */
  ghost predicate WellFormed(g: GridState) {
    IdsMatch(g) && IdsFresh(g) && OccupancySound(g) && OccupancyComplete(g)
  }

  lemma EmptyWellFormed()
    ensures WellFormed(Empty)
  {
  }

  /** No two recorded buildings share a cell. */
  lemma FootprintsDisjoint(g: GridState, a: string, b: string, c: Pos)
    requires WellFormed(g)
    requires a in g.byId && b in g.byId && a != b
    ensures Covers(g.byId[a], c) ==> !Covers(g.byId[b], c)
  {
    if Covers(g.byId[a], c) {
      assert g.occupancy[c] == a;
    }
  }

  // ---------------------------------------------------------------------------
  // Operations
  // ---------------------------------------------------------------------------

  /** True iff the footprint lies inside the bounds and none of its cells is occupied. */
  function CanPlace(g: GridState, origin: Pos, w: int, h: int, bounds: Bounds): (r: bool)
    ensures origin.x < 0 || origin.y < 0 || origin.x + w > bounds.width || origin.y + h > bounds.height ==> !r
    ensures r <==>
      && 0 <= origin.x && 0 <= origin.y
      && origin.x + w <= bounds.width && origin.y + h <= bounds.height
      && forall c :: InFootprint(c, origin, w, h) ==> c !in g.occupancy
  {
    CellsForMembership(origin, w, h);
    if origin.x < 0 || origin.y < 0 then false
    else if origin.x + w > bounds.width then false
    else if origin.y + h > bounds.height then false
    else
      var cells := CellsFor(origin, w, h);
      forall i :: 0 <= i < |cells| ==> cells[i] !in g.occupancy
  }

  datatype Placement = Placement(grid: GridState, building: Building)

  /** Records a new building and claims its footprint. Like the source, it
      does not re-check `CanPlace`: cells already claimed are overwritten. */
  function Place(g: GridState, ownerId: string, defId: string, origin: Pos, w: int, h: int,
                 rotation: Option<int>, now: int, stamp: string): (r: Placement)
    ensures r.grid.nextIdCounter == g.nextIdCounter + 1
    ensures r.building.id == MakeId(g.nextIdCounter, stamp) && CounterOf(r.building.id) == Some(g.nextIdCounter)
    ensures WellFormed(g) ==> r.building.id !in g.byId
    ensures r.building.ownerId == ownerId && r.building.defId == defId && r.building.pos == origin
    ensures r.building.level == 1 && r.building.meta == Meta(Some(w), Some(h))
    ensures r.building.createdAt == now && r.building.rotation == rotation.GetOr(0)
    ensures r.grid.byId == g.byId[r.building.id := r.building]
    ensures forall c :: InFootprint(c, origin, w, h) ==> c in r.grid.occupancy && r.grid.occupancy[c] == r.building.id
    ensures forall c :: !InFootprint(c, origin, w, h) ==>
      (c in r.grid.occupancy <==> c in g.occupancy) && (c in g.occupancy ==> r.grid.occupancy[c] == g.occupancy[c])
  {
    var id := MakeId(g.nextIdCounter, stamp);
    CounterOfMakeId(g.nextIdCounter, stamp);
    var placed := Building(id, defId, ownerId, origin, rotation.GetOr(0), 1, now, Meta(Some(w), Some(h)));
    var cells := CellsFor(origin, w, h);
    CellsForMembership(origin, w, h);
    Placement(
      GridState(g.byId[id := placed], g.occupancy + map c | c in cells :: id, g.nextIdCounter + 1),
      placed)
  }

  /** True iff the building exists and belongs to `ownerId`. */
  function CanRemove(g: GridState, ownerId: string, id: string): (r: bool)
    ensures r <==> id in g.byId && g.byId[id].ownerId == ownerId
  {
    id in g.byId && g.byId[id].ownerId == ownerId
  }

  /** Releases the building's footprint and drops its record; fails with
      "cannot_remove" and changes nothing when `CanRemove` is false. */
  function Remove(g: GridState, ownerId: string, id: string): (r: Result<GridState>)
    ensures r.Err? <==> !CanRemove(g, ownerId, id)
    ensures r.Err? ==> r.message == "cannot_remove"
    ensures r.Ok? ==> r.value.byId == map k | k in g.byId && k != id :: g.byId[k]
    ensures r.Ok? ==> forall c :: c in r.value.occupancy <==> c in g.occupancy && !Covers(g.byId[id], c)
    ensures r.Ok? ==> forall c :: c in r.value.occupancy ==> r.value.occupancy[c] == g.occupancy[c]
    ensures r.Ok? ==> r.value.nextIdCounter == g.nextIdCounter
  {
    if !CanRemove(g, ownerId, id) then Err("cannot_remove")
    else
      var b := g.byId[id];
      var cells := CellsFor(b.pos, Width(b), Height(b));
      CellsForMembership(b.pos, Width(b), Height(b));
      Ok(GridState(g.byId - {id}, g.occupancy - (set c | c in cells), g.nextIdCounter))
  }

  /** True iff the building exists, belongs to `ownerId`, and - when a
      non-zero `maxLevel` is given - its level is still below it. A zero or
      absent `maxLevel` imposes no cap, as the source tests it for truthiness. */
  function CanUpgrade(g: GridState, ownerId: string, id: string, maxLevel: Option<int>): (r: bool)
    ensures id !in g.byId || g.byId[id].ownerId != ownerId ==> !r
    ensures maxLevel.Some? && maxLevel.value != 0 && id in g.byId && g.byId[id].level >= maxLevel.value ==> !r
    ensures r <==> (CanRemove(g, ownerId, id) &&
      (maxLevel == None || maxLevel == Some(0) || g.byId[id].level < maxLevel.value))
  {
    if id !in g.byId || g.byId[id].ownerId != ownerId then false
    else if maxLevel.Some? && maxLevel.value != 0 && g.byId[id].level >= maxLevel.value then false
    else true
  }

  /** The level an upgrade produces: a stored level of 0 counts as 1. */
  function NextLevel(level: int): int {
    (if level == 0 then 1 else level) + 1
  }

  /** Raises the building's level; fails with "cannot_upgrade" when the caller
      does not own an existing building. Footprint and occupancy are untouched. */
  function Upgrade(g: GridState, ownerId: string, id: string): (r: Result<Placement>)
    ensures r.Err? <==> !CanRemove(g, ownerId, id)
    ensures r.Err? ==> r.message == "cannot_upgrade"
    ensures r.Ok? ==> g.byId[id].level != 0 ==> r.value.building.level == g.byId[id].level + 1
    ensures r.Ok? ==> g.byId[id].level == 0 ==> r.value.building.level == 2
    ensures r.Ok? ==> r.value.building == g.byId[id].(level := r.value.building.level)
    ensures r.Ok? ==> r.value.grid == g.(byId := g.byId[id := r.value.building])
  {
    if !CanUpgrade(g, ownerId, id, None) then Err("cannot_upgrade")
    else
      var b := g.byId[id];
      var upgraded := b.(level := NextLevel(b.level));
      Ok(Placement(g.(byId := g.byId[id := upgraded]), upgraded))
  }

  function GetBuilding(g: GridState, id: string): (r: Option<Building>)
    ensures r.Some? <==> id in g.byId
    ensures r.Some? ==> r.value == g.byId[id]
  {
    if id in g.byId then Some(g.byId[id]) else None
  }

  /** `upgrade` consults `canUpgrade` without a cap: it fails exactly when
      the uncapped check refuses. */
  lemma UpgradeFollowsCanUpgrade(g: GridState, ownerId: string, id: string)
    ensures Upgrade(g, ownerId, id).Err? <==> !CanUpgrade(g, ownerId, id, None)
  {
  }

  /** The level cap is never enforced by `upgrade`: a building already at a
      non-zero cap is still upgraded past it. */
  lemma UpgradeIgnoresCap(g: GridState, ownerId: string, id: string, maxLevel: int)
    requires CanRemove(g, ownerId, id) && maxLevel != 0 && g.byId[id].level >= maxLevel
    ensures !CanUpgrade(g, ownerId, id, Some(maxLevel))
    ensures Upgrade(g, ownerId, id).Ok?
  {
  }

  /** A placed building can be looked up under its new id, and after its
      removal it can no longer be. */
  lemma GetBuildingAfterPlaceAndRemove(g: GridState, ownerId: string, defId: string, origin: Pos, w: int, h: int,
                                       rotation: Option<int>, now: int, stamp: string)
    ensures var p := Place(g, ownerId, defId, origin, w, h, rotation, now, stamp);
      && GetBuilding(p.grid, p.building.id) == Some(p.building)
      && Remove(p.grid, ownerId, p.building.id).Ok?
      && GetBuilding(Remove(p.grid, ownerId, p.building.id).value, p.building.id).None?
  {
  }

  // ---------------------------------------------------------------------------
  // The invariant is preserved
  // ---------------------------------------------------------------------------

  /** Adding a fresh record `b` whose footprint cells were all vacant, and
      pointing exactly those cells at it, keeps the index well formed. */
  lemma AddFreshKeepsWellFormed(g: GridState, g': GridState, b: Building)
    requires WellFormed(g)
    requires b.id !in g.byId && CounterOf(b.id) == Some(g.nextIdCounter)
    requires g'.nextIdCounter == g.nextIdCounter + 1
    requires g'.byId == g.byId[b.id := b]
    requires forall c :: Covers(b, c) ==> c !in g.occupancy
    requires forall c :: Covers(b, c) ==> c in g'.occupancy && g'.occupancy[c] == b.id
    requires forall c :: !Covers(b, c) ==>
      (c in g'.occupancy <==> c in g.occupancy) && (c in g.occupancy ==> g'.occupancy[c] == g.occupancy[c])
    ensures WellFormed(g')
  {
    AddFreshKeepsIds(g, g', b);
    AddFreshKeepsSound(g, g', b);
    AddFreshKeepsComplete(g, g', b);
  }

  lemma AddFreshKeepsIds(g: GridState, g': GridState, b: Building)
    requires IdsMatch(g) && IdsFresh(g)
    requires CounterOf(b.id) == Some(g.nextIdCounter)
    requires g'.nextIdCounter == g.nextIdCounter + 1
    requires g'.byId == g.byId[b.id := b]
    ensures IdsMatch(g') && IdsFresh(g')
  {
    forall id | id in g'.byId
      ensures CounterOf(id).Some? && CounterOf(id).value < g'.nextIdCounter
    {
      if id != b.id {
        assert id in g.byId;
      }
    }
  }

  lemma AddFreshKeepsSound(g: GridState, g': GridState, b: Building)
    requires OccupancySound(g)
    requires b.id !in g.byId && g'.byId == g.byId[b.id := b]
    requires forall c :: Covers(b, c) ==> c in g'.occupancy && g'.occupancy[c] == b.id
    requires forall c :: !Covers(b, c) ==>
      (c in g'.occupancy <==> c in g.occupancy) && (c in g.occupancy ==> g'.occupancy[c] == g.occupancy[c])
    ensures OccupancySound(g')
  {
    forall c | c in g'.occupancy
      ensures g'.occupancy[c] in g'.byId && Covers(g'.byId[g'.occupancy[c]], c)
    {
      if !Covers(b, c) {
        var k := g.occupancy[c];
        assert k in g.byId && Covers(g.byId[k], c);
        assert g'.occupancy[c] == k && k != b.id;
      }
    }
  }

  lemma AddFreshKeepsComplete(g: GridState, g': GridState, b: Building)
    requires OccupancyComplete(g)
    requires b.id !in g.byId && g'.byId == g.byId[b.id := b]
    requires forall c :: Covers(b, c) ==> c !in g.occupancy
    requires forall c :: Covers(b, c) ==> c in g'.occupancy && g'.occupancy[c] == b.id
    requires forall c :: !Covers(b, c) ==>
      (c in g'.occupancy <==> c in g.occupancy) && (c in g.occupancy ==> g'.occupancy[c] == g.occupancy[c])
    ensures OccupancyComplete(g')
  {
    forall id, c | id in g'.byId && Covers(g'.byId[id], c)
      ensures c in g'.occupancy && g'.occupancy[c] == id
    {
      if id != b.id {
        assert id in g.byId && g'.byId[id] == g.byId[id];
        assert c in g.occupancy && g.occupancy[c] == id;
      }
    }
  }

  /** Placing where `CanPlace` holds keeps the index well formed. */
  lemma PlacePreservesWellFormed(g: GridState, ownerId: string, defId: string, origin: Pos,
                                 w: int, h: int, bounds: Bounds, rotation: Option<int>,
                                 now: int, stamp: string)
    requires WellFormed(g)
    requires CanPlace(g, origin, w, h, bounds)
    ensures WellFormed(Place(g, ownerId, defId, origin, w, h, rotation, now, stamp).grid)
  {
    var r := Place(g, ownerId, defId, origin, w, h, rotation, now, stamp);
    assert forall c :: Covers(r.building, c) <==> InFootprint(c, origin, w, h);
    AddFreshKeepsWellFormed(g, r.grid, r.building);
  }

  /** Dropping a record together with exactly the cells it covers keeps the
      index well formed. */
  lemma DropKeepsWellFormed(g: GridState, g': GridState, id: string)
    requires WellFormed(g) && id in g.byId
    requires g'.nextIdCounter == g.nextIdCounter
    requires g'.byId == map k | k in g.byId && k != id :: g.byId[k]
    requires forall c :: c in g'.occupancy <==> c in g.occupancy && !Covers(g.byId[id], c)
    requires forall c :: c in g'.occupancy ==> g'.occupancy[c] == g.occupancy[c]
    ensures WellFormed(g')
  {
    assert IdsMatch(g') && IdsFresh(g');
    DropKeepsSound(g, g', id);
    DropKeepsComplete(g, g', id);
  }

  lemma DropKeepsSound(g: GridState, g': GridState, id: string)
    requires OccupancySound(g) && id in g.byId
    requires g'.byId == map k | k in g.byId && k != id :: g.byId[k]
    requires forall c :: c in g'.occupancy <==> c in g.occupancy && !Covers(g.byId[id], c)
    requires forall c :: c in g'.occupancy ==> g'.occupancy[c] == g.occupancy[c]
    ensures OccupancySound(g')
  {
    forall c | c in g'.occupancy
      ensures g'.occupancy[c] in g'.byId && Covers(g'.byId[g'.occupancy[c]], c)
    {
      var k := g.occupancy[c];
      assert k in g.byId && Covers(g.byId[k], c);
      assert k != id;
    }
  }

  lemma DropKeepsComplete(g: GridState, g': GridState, id: string)
    requires WellFormed(g) && id in g.byId
    requires g'.byId == map k | k in g.byId && k != id :: g.byId[k]
    requires forall c :: c in g'.occupancy <==> c in g.occupancy && !Covers(g.byId[id], c)
    requires forall c :: c in g'.occupancy ==> g'.occupancy[c] == g.occupancy[c]
    ensures OccupancyComplete(g')
  {
    forall k, c | k in g'.byId && Covers(g'.byId[k], c)
      ensures c in g'.occupancy && g'.occupancy[c] == k
    {
      assert k != id && k in g.byId && g'.byId[k] == g.byId[k];
      FootprintsDisjoint(g, k, id, c);
      assert c in g.occupancy && g.occupancy[c] == k;
    }
  }

  /** Removing keeps the index well formed. */
  lemma RemovePreservesWellFormed(g: GridState, ownerId: string, id: string)
    requires WellFormed(g)
    requires Remove(g, ownerId, id).Ok?
    ensures WellFormed(Remove(g, ownerId, id).value)
  {
    DropKeepsWellFormed(g, Remove(g, ownerId, id).value, id);
  }

  /** Replacing records by ones with the same id, origin and footprint,
      leaving occupancy and counter alone, keeps the index well formed. */
  lemma SameFootprintsKeepWellFormed(g: GridState, g': GridState)
    requires WellFormed(g)
    requires g'.occupancy == g.occupancy && g'.nextIdCounter == g.nextIdCounter
    requires g'.byId.Keys == g.byId.Keys
    requires forall k :: k in g.byId ==>
      g'.byId[k].id == g.byId[k].id && g'.byId[k].pos == g.byId[k].pos && g'.byId[k].meta == g.byId[k].meta
    ensures WellFormed(g')
  {
    assert IdsMatch(g') && IdsFresh(g');
    SameFootprintsKeepSound(g, g');
    SameFootprintsKeepComplete(g, g');
  }

  lemma SameFootprintsKeepSound(g: GridState, g': GridState)
    requires OccupancySound(g)
    requires g'.occupancy == g.occupancy && g'.byId.Keys == g.byId.Keys
    requires forall k :: k in g.byId ==> g'.byId[k].pos == g.byId[k].pos && g'.byId[k].meta == g.byId[k].meta
    ensures OccupancySound(g')
  {
    forall c | c in g'.occupancy
      ensures g'.occupancy[c] in g'.byId && Covers(g'.byId[g'.occupancy[c]], c)
    {
      assert Covers(g.byId[g.occupancy[c]], c);
    }
  }

  lemma SameFootprintsKeepComplete(g: GridState, g': GridState)
    requires OccupancyComplete(g)
    requires g'.occupancy == g.occupancy && g'.byId.Keys == g.byId.Keys
    requires forall k :: k in g.byId ==> g'.byId[k].pos == g.byId[k].pos && g'.byId[k].meta == g.byId[k].meta
    ensures OccupancyComplete(g')
  {
    forall id, c | id in g'.byId && Covers(g'.byId[id], c)
      ensures c in g'.occupancy && g'.occupancy[c] == id
    {
      assert Covers(g.byId[id], c);
    }
  }

  /** Upgrading keeps the index well formed. */
  lemma UpgradePreservesWellFormed(g: GridState, ownerId: string, id: string)
    requires WellFormed(g)
    requires Upgrade(g, ownerId, id).Ok?
    ensures WellFormed(Upgrade(g, ownerId, id).value.grid)
  {
    var u := Upgrade(g, ownerId, id).value;
    SameFootprintsKeepWellFormed(g, u.grid);
  }

  /** Placing a building and then removing it, as its owner, restores the
      records and the occupancy map; only the id counter has moved on. */
  lemma PlaceThenRemoveRestores(g: GridState, ownerId: string, defId: string, origin: Pos,
                                w: int, h: int, bounds: Bounds, rotation: Option<int>,
                                now: int, stamp: string)
    requires WellFormed(g)
    requires CanPlace(g, origin, w, h, bounds)
    ensures var p := Place(g, ownerId, defId, origin, w, h, rotation, now, stamp);
      Remove(p.grid, ownerId, p.building.id) == Ok(g.(nextIdCounter := g.nextIdCounter + 1))
  {
    var p := Place(g, ownerId, defId, origin, w, h, rotation, now, stamp);
    var b := p.building;
    assert forall c :: Covers(b, c) <==> InFootprint(c, origin, w, h);
    var r := Remove(p.grid, ownerId, b.id);
    assert r.Ok?;
    assert p.grid.byId[b.id] == b;
    assert r.value.byId == g.byId;
    ReleasedFootprintRestores(g.occupancy, p.grid.occupancy, r.value.occupancy, b);
  }

  /** Claiming a vacant footprint and then releasing it leaves the
      occupancy map as it was. */
  lemma ReleasedFootprintRestores(before: map<Pos, string>, during: map<Pos, string>, after: map<Pos, string>, b: Building)
    requires forall c :: Covers(b, c) ==> c !in before && c in during
    requires forall c :: !Covers(b, c) ==>
      (c in during <==> c in before) && (c in before ==> during[c] == before[c])
    requires forall c :: c in after <==> c in during && !Covers(b, c)
    requires forall c :: c in after ==> after[c] == during[c]
    ensures after == before
  {
    forall c | c in before
      ensures c in after && after[c] == before[c]
    {
      assert !Covers(b, c);
    }
  }
}

=== FILE: json.dfy ===
/** Untyped JSON-like values as the definition validators see them, with the
    JavaScript notions they rely on: truthiness, `typeof`, property access,
    `??`, `.length`, and conversion to number. Numbers are exact reals;
    a conversion that JavaScript would turn into NaN yields `None`. */
module Json {
  import opened Results
  import Decimal

  datatype Value =
    | Undefined
    | Null
    | Bool(b: bool)
    | Num(n: real)
    | Str(s: string)
    | Arr(items: seq<Value>)
    | Obj(fields: map<string, Value>)

  /** JavaScript's `!!v`. */
  predicate Truthy(v: Value) {
    match v
    case Undefined => false
    case Null => false
    case Bool(b) => b
    case Num(n) => n != 0.0
    case Str(s) => |s| > 0
    case Arr(_) => true
    case Obj(_) => true
  }

  /** `typeof v === "object"` (which includes null and arrays). */
  predicate IsObjectType(v: Value) {
    v.Null? || v.Arr? || v.Obj?
  }

  /** `v == null`: the values `??` and `?.` skip. */
  predicate Nullish(v: Value) {
    v.Undefined? || v.Null?
  }

  /** `v.key` on a non-nullish value (`v?.key` on any value). Only objects
      carry the keys the definitions read. */
  function Field(v: Value, key: string): Value {
    if v.Obj? && key in v.fields then v.fields[key] else Undefined
  }

  /** `a ?? b`. */
  function Coalesce(a: Value, b: Value): Value {
    if Nullish(a) then b else a
  }

  /** `v?.length`: arrays and strings report their length, an object its
      "length" field. */
  function Length(v: Value): Value {
    match v
    case Arr(items) => Num(|items| as real)
    case Str(s) => Num(|s| as real)
    case Obj(_) => Field(v, "length")
    case _ => Undefined
  }

  /** A number, or `None` for NaN. */
  type Number = Option<real>

  /** `Number(v)`. Strings, arrays and objects are taken as NaN. */
  function ToNumber(v: Value): Number {
    match v
    case Num(n) => Some(n)
    case Bool(b) => Some(if b then 1.0 else 0.0)
    case Null => Some(0.0)
    case _ => None
  }

  /** `Math.floor`. */
  function Floor(x: Number): Number {
    match x
    case Some(r) => Some(r.Floor as real)
    case None => None
  }

  /** `Math.max(lo, x)`: NaN wins. */
  function AtLeast(lo: real, x: Number): (r: Number)
    ensures x.None? <==> r.None?
    ensures r.Some? ==> r.value >= lo && (r.value == lo || r.value == x.value)
  {
    match x
    case Some(v) => Some(if v < lo then lo else v)
    case None => None
  }

  /** `Number.isInteger(v)`. */
  predicate IsInteger(v: Value) {
    v.Num? && v.n.Floor as real == v.n
  }

  /** `a === b`. Arrays and objects compare by reference. Values read from
      different properties are taken to be different objects, as they are in
      a parsed JSON document; a caller that reads the same property twice
      must not use this predicate for the comparison. */
  predicate StrictlyEqual(a: Value, b: Value) {
    match (a, b)
    case (Undefined, Undefined) => true
    case (Null, Null) => true
    case (Bool(x), Bool(y)) => x == y
    case (Num(x), Num(y)) => x == y
    case (Str(x), Str(y)) => x == y
    case _ => false
  }

  /** The own index-keyed properties of an array-like: item `i` under the
      key `${i}`. */
  function Indexed(items: seq<Value>): (m: map<string, Value>)
    ensures forall i :: 0 <= i < |items| ==> Decimal.NatToString(i) in m && m[Decimal.NatToString(i)] == items[i]
    ensures forall k :: k in m ==> exists i :: 0 <= i < |items| && k == Decimal.NatToString(i)
  {
    Decimal.NatToStringInjective();
    map i | 0 <= i < |items| :: Decimal.NatToString(i) := items[i]
  }

  /** The properties `{ ...v }` copies: an object's own fields, the indexed
      items of an array, the indexed one-character strings of a string, and
      nothing from `null`, `undefined`, a boolean or a number. */
  function Spread(v: Value): (m: map<string, Value>)
    ensures v.Obj? ==> m == v.fields
    ensures v.Arr? ==> m == Indexed(v.items)
    ensures v.Str? ==> forall i :: 0 <= i < |v.s| ==>
      Decimal.NatToString(i) in m && m[Decimal.NatToString(i)] == Str([v.s[i]])
    ensures v.Str? ==> forall k :: k in m ==> exists i :: 0 <= i < |v.s| && k == Decimal.NatToString(i)
    ensures !v.Obj? && !v.Arr? && !v.Str? ==> m == map[]
  {
    match v
    case Obj(fields) => fields
    case Arr(items) => Indexed(items)
    case Str(s) => Indexed(seq(|s|, i requires 0 <= i < |s| => Str([s[i]])))
    case _ => map[]
  }
}

=== FILE: results.dfy ===
/** Option and Result values shared by every module of the model. A JavaScript
    `undefined` becomes `None`; a thrown `Error` becomes `Err` with its message. */
module Results {

  datatype Option<+T> = None | Some(value: T) {
    function GetOr(default: T): T {
      match this
      case Some(v) => v
      case None => default
    }
  }

  datatype Result<+T> = Ok(value: T) | Err(message: string) {
    predicate IsFailure() {
      Err?
    }
  }
}

=== FILE: room.dfy ===
/** The farm room: routes each queued action envelope to the domain system
    that owns its tag, drains the queue in arrival order with
    validate-then-apply, bumps the world version once per accepted envelope,
    and on each gameplay tick lets every system progress. Domain systems are
    parameters: `validate` and `apply` stand for the routed system's
    `validateAction` and `applyAction`. */
module Room {
  import opened Results
  import opened Envelopes

  datatype SystemId = Crops | Buildings | Animals | Economy | Inventory

  const RoutedTypes: set<string> := {
    "plant.crop", "harvest.crop", "place.building", "remove.building", "upgrade.building",
    "feed.animal", "collect.product", "sell.item", "move.inventory"}

  /** The static routing table from action tag to owning system. */
  function Route(actionType: string): (r: Option<SystemId>)
    ensures r.Some? <==> actionType in RoutedTypes
    ensures r == Some(Buildings) <==> actionType in {"place.building", "remove.building", "upgrade.building"}
    ensures r == Some(Crops) <==> actionType in {"plant.crop", "harvest.crop"}
    ensures r == Some(Animals) <==> actionType in {"feed.animal", "collect.product"}
    ensures r == Some(Economy) <==> actionType == "sell.item"
    ensures r == Some(Inventory) <==> actionType == "move.inventory"
  {
    if actionType == "plant.crop" || actionType == "harvest.crop" then Some(Crops)
    else if actionType == "place.building" || actionType == "remove.building" || actionType == "upgrade.building" then Some(Buildings)
    else if actionType == "feed.animal" || actionType == "collect.product" then Some(Animals)
    else if actionType == "sell.item" then Some(Economy)
    else if actionType == "move.inventory" then Some(Inventory)
    else None
  }

  /** The systems the room registers when it is created. */
  const Registered: set<SystemId> := {Buildings, Crops}

  /** With the systems the room registers, only the building and crop tags
      reach a system; every other tag, routed or not, crashes the drain. */
  lemma RegisteredTags(actionType: string)
    ensures !Unroutable(actionType, Registered) <==>
      actionType in {"place.building", "remove.building", "upgrade.building", "plant.crop", "harvest.crop"}
  {
  }

  datatype Broadcast<R> = Broadcast(actionType: string, result: R, version: int)

  datatype RoomState<W, P> = RoomState(world: W, version: int, queue: seq<Envelope<P>>, dirty: bool)

  /** Ingress: the envelope joins the tail of the queue. */
  function Enqueue<W, P>(room: RoomState<W, P>, env: Envelope<P>): (r: RoomState<W, P>)
    ensures |r.queue| == |room.queue| + 1 && r.queue[|room.queue|] == env
    ensures r.queue[..|room.queue|] == room.queue
    ensures r.world == room.world && r.version == room.version && r.dirty == room.dirty
  {
    room.(queue := room.queue + [env])
  }

  /** True when the head envelope has no registered system to go to: the
      source then calls a method on `undefined` and the exception ends the
      drain. */
  predicate Unroutable(actionType: string, registered: set<SystemId>) {
    Route(actionType).None? || Route(actionType).value !in registered
  }

  datatype Drained<W, P, R> = Drained(room: RoomState<W, P>, broadcasts: seq<Broadcast<R>>, crashed: bool)

  /** The reference meaning of one `processQueue` call, envelope by envelope. */
  function Drain<W, P, R>(room: RoomState<W, P>, registered: set<SystemId>,
                          validate: (SystemId, P, ActionContext, W) -> bool,
                          apply: (SystemId, P, ActionContext, W) -> (W, R)): (d: Drained<W, P, R>)
    decreases |room.queue|
  {
    if |room.queue| == 0 then Drained(room, [], false)
    else
      var env := room.queue[0];
      var rest := room.(queue := room.queue[1..]);
      if Unroutable(env.actionType, registered) then Drained(rest, [], true)
      else
        var sid := Route(env.actionType).value;
        if !validate(sid, env.payload, env.ctx, room.world) then Drain(rest, registered, validate, apply)
        else
          var (w', result) := apply(sid, env.payload, env.ctx, room.world);
          var next := rest.(world := w', version := room.version + 1, dirty := true);
          var d := Drain(next, registered, validate, apply);
          Drained(d.room, [Broadcast(env.actionType, result, room.version + 1)] + d.broadcasts, d.crashed)
  }

  /** The version rises by exactly the number of broadcasts, which carry
      consecutive versions; a drain that does not crash empties the queue,
      and one that crashes leaves a suffix of it; the room is dirty after any
      broadcast. */
  lemma {:induction false} DrainBookkeeping<W, P, R>(room: RoomState<W, P>, registered: set<SystemId>,
                                                    validate: (SystemId, P, ActionContext, W) -> bool,
                                                    apply: (SystemId, P, ActionContext, W) -> (W, R))
    ensures var d := Drain(room, registered, validate, apply);
      && d.room.version == room.version + |d.broadcasts|
      && (forall i :: 0 <= i < |d.broadcasts| ==> d.broadcasts[i].version == room.version + i + 1)
      && (!d.crashed ==> d.room.queue == [])
      && (d.crashed ==> |d.room.queue| < |room.queue| && d.room.queue == room.queue[|room.queue| - |d.room.queue|..])
      && d.room.dirty == (room.dirty || |d.broadcasts| > 0)
    decreases |room.queue|
  {
    if |room.queue| > 0 {
      var env := room.queue[0];
      var rest := room.(queue := room.queue[1..]);
      if !Unroutable(env.actionType, registered) {
        var sid := Route(env.actionType).value;
        if !validate(sid, env.payload, env.ctx, room.world) {
          DrainBookkeeping(rest, registered, validate, apply);
          var d := Drain(rest, registered, validate, apply);
          if d.crashed {
            assert room.queue[1..][|room.queue[1..]| - |d.room.queue|..] == room.queue[|room.queue| - |d.room.queue|..];
          }
        } else {
          var (w', result) := apply(sid, env.payload, env.ctx, room.world);
          var next := rest.(world := w', version := room.version + 1, dirty := true);
          DrainBookkeeping(next, registered, validate, apply);
          var d := Drain(next, registered, validate, apply);
          if d.crashed {
            assert room.queue[1..][|room.queue[1..]| - |d.room.queue|..] == room.queue[|room.queue| - |d.room.queue|..];
          }
        }
      }
    }
  }

  /** What a drain `d` of the queue ahead of `env` leads to once `env` is
      queued behind it: after a crash `env` waits behind what is left;
      otherwise `env` is drained next, from the room `d` leaves. */
  function Resume<W, P, R>(d: Drained<W, P, R>, env: Envelope<P>, registered: set<SystemId>,
                           validate: (SystemId, P, ActionContext, W) -> bool,
                           apply: (SystemId, P, ActionContext, W) -> (W, R)): Drained<W, P, R>
  {
    if d.crashed then Drained(d.room.(queue := d.room.queue + [env]), d.broadcasts, true)
    else After(d.broadcasts, Drain(d.room.(queue := [env]), registered, validate, apply))
  }

  /** Resuming commutes with a broadcast made before it. */
  lemma ResumeAfterBroadcast<W, P, R>(b: Broadcast<R>, d: Drained<W, P, R>, env: Envelope<P>, registered: set<SystemId>,
                                      validate: (SystemId, P, ActionContext, W) -> bool,
                                      apply: (SystemId, P, ActionContext, W) -> (W, R))
    ensures Resume(After([b], d), env, registered, validate, apply) == After([b], Resume(d, env, registered, validate, apply))
  {
    if !d.crashed {
      var e := Drain(d.room.(queue := [env]), registered, validate, apply);
      assert [b] + (d.broadcasts + e.broadcasts) == ([b] + d.broadcasts) + e.broadcasts;
    }
  }

  /** Queueing is first in, first out: an envelope enqueued behind the
      others is drained after all of them, from the room they leave behind;
      if one of them crashes the drain, it stays queued behind what is left. */
  lemma {:induction false} EnqueueDrainsLast<W, P, R>(room: RoomState<W, P>, env: Envelope<P>, registered: set<SystemId>,
                                                     validate: (SystemId, P, ActionContext, W) -> bool,
                                                     apply: (SystemId, P, ActionContext, W) -> (W, R))
    ensures Drain(Enqueue(room, env), registered, validate, apply)
      == Resume(Drain(room, registered, validate, apply), env, registered, validate, apply)
    decreases |room.queue|
  {
    var room' := Enqueue(room, env);
    if |room.queue| == 0 {
      assert room' == room.(queue := [env]);
      var e := Drain(room', registered, validate, apply);
      assert [] + e.broadcasts == e.broadcasts;
    } else {
      var head := room.queue[0];
      var rest := room.(queue := room.queue[1..]);
      assert room'.queue[0] == head;
      assert room'.(queue := room'.queue[1..]) == Enqueue(rest, env) by {
        assert room'.queue[1..] == room.queue[1..] + [env];
      }
      if !Unroutable(head.actionType, registered) {
        var sid := Route(head.actionType).value;
        if !validate(sid, head.payload, head.ctx, room.world) {
          EnqueueDrainsLast(rest, env, registered, validate, apply);
        } else {
          var (w', result) := apply(sid, head.payload, head.ctx, room.world);
          var next := rest.(world := w', version := room.version + 1, dirty := true);
          var b := Broadcast(head.actionType, result, room.version + 1);
          assert room'.(queue := room'.queue[1..]).(world := w', version := room.version + 1, dirty := true) == Enqueue(next, env);
          assert Drain(room', registered, validate, apply) == After([b], Drain(Enqueue(next, env), registered, validate, apply));
          assert Drain(room, registered, validate, apply) == After([b], Drain(next, registered, validate, apply));
          EnqueueDrainsLast(next, env, registered, validate, apply);
          ResumeAfterBroadcast(b, Drain(next, registered, validate, apply), env, registered, validate, apply);
        }
      }
    }
  }

  /** Whatever the systems preserve on every accepted envelope, a drain preserves. */
  lemma {:induction false} DrainPreserves<W, P, R>(room: RoomState<W, P>, registered: set<SystemId>,
                                                  validate: (SystemId, P, ActionContext, W) -> bool,
                                                  apply: (SystemId, P, ActionContext, W) -> (W, R),
                                                  inv: W -> bool)
    requires inv(room.world)
    requires forall sid, p, c, w :: inv(w) && validate(sid, p, c, w) ==> inv(apply(sid, p, c, w).0)
    ensures inv(Drain(room, registered, validate, apply).room.world)
    decreases |room.queue|
  {
    if |room.queue| > 0 {
      var env := room.queue[0];
      var rest := room.(queue := room.queue[1..]);
      if !Unroutable(env.actionType, registered) {
        var sid := Route(env.actionType).value;
        if !validate(sid, env.payload, env.ctx, room.world) {
          DrainPreserves(rest, registered, validate, apply, inv);
        } else {
          var (w', result) := apply(sid, env.payload, env.ctx, room.world);
          var next := rest.(world := w', version := room.version + 1, dirty := true);
          DrainPreserves(next, registered, validate, apply, inv);
        }
      }
    }
  }

  /** One `processQueue` call: takes envelopes from the head until the queue
      is empty or an unroutable envelope aborts the call. `handled` lists the
      queue positions of the accepted envelopes, one per broadcast. */
  method ProcessQueue<W, P, R>(room: RoomState<W, P>, registered: set<SystemId>,
                               validate: (SystemId, P, ActionContext, W) -> bool,
                               apply: (SystemId, P, ActionContext, W) -> (W, R))
    returns (out: RoomState<W, P>, broadcasts: seq<Broadcast<R>>, handled: seq<nat>, crashed: bool)
    ensures Drain(room, registered, validate, apply) == Drained(out, broadcasts, crashed)
    ensures out.version == room.version + |broadcasts|
    ensures forall i :: 0 <= i < |broadcasts| ==> broadcasts[i].version == room.version + i + 1
    ensures |handled| == |broadcasts|
    ensures forall i, j :: 0 <= i < j < |handled| ==> handled[i] < handled[j]
    ensures forall i :: 0 <= i < |handled| ==>
      handled[i] < |room.queue| && broadcasts[i].actionType == room.queue[handled[i]].actionType
    ensures !crashed ==> out.queue == []
    ensures crashed ==> |out.queue| < |room.queue| && out.queue == room.queue[|room.queue| - |out.queue|..]
    ensures out.dirty == (room.dirty || |broadcasts| > 0)
  {
    out, broadcasts, handled, crashed := DrainLoop(room, registered, validate, apply);
    DrainBookkeeping(room, registered, validate, apply);
  }

  /** The loop of `ProcessQueue`, proved equal to the reference drain. */
  method DrainLoop<W, P, R>(room: RoomState<W, P>, registered: set<SystemId>,
                            validate: (SystemId, P, ActionContext, W) -> bool,
                            apply: (SystemId, P, ActionContext, W) -> (W, R))
    returns (out: RoomState<W, P>, broadcasts: seq<Broadcast<R>>, handled: seq<nat>, crashed: bool)
    ensures Drain(room, registered, validate, apply) == Drained(out, broadcasts, crashed)
    ensures |handled| == |broadcasts|
    ensures forall i, j :: 0 <= i < j < |handled| ==> handled[i] < handled[j]
    ensures forall i :: 0 <= i < |handled| ==>
      handled[i] < |room.queue| && broadcasts[i].actionType == room.queue[handled[i]].actionType
  {
    var cur := room;
    var k := 0;
    broadcasts := [];
    handled := [];
    crashed := false;
    while k < |room.queue|
      invariant k <= |room.queue| && cur.queue == room.queue[k..]
      invariant |handled| == |broadcasts|
      invariant forall i, j :: 0 <= i < j < |handled| ==> handled[i] < handled[j]
      invariant forall i :: 0 <= i < |handled| ==>
        handled[i] < k && broadcasts[i].actionType == room.queue[handled[i]].actionType
      invariant Drain(room, registered, validate, apply) == After(broadcasts, Drain(cur, registered, validate, apply))
      decreases |room.queue| - k
    {
      var env := room.queue[k];
      var rest := cur.(queue := room.queue[k + 1..]);
      if Unroutable(env.actionType, registered) {
        CrashStep(cur, rest, registered, validate, apply);
        cur := rest;
        crashed := true;
        break;
      }
      var sid := Route(env.actionType).value;
      if !validate(sid, env.payload, env.ctx, cur.world) {
        SkipStep(cur, rest, registered, validate, apply);
        cur := rest;
      } else {
        var (w', result) := apply(sid, env.payload, env.ctx, cur.world);
        var b := Broadcast(env.actionType, result, cur.version + 1);
        var next := rest.(world := w', version := cur.version + 1, dirty := true);
        AcceptStep(cur, next, b, broadcasts, registered, validate, apply);
        cur := next;
        broadcasts := broadcasts + [b];
        handled := handled + [k];
      }
      k := k + 1;
    }
    out := cur;
    if !crashed {
      EmptyStep(cur, broadcasts, registered, validate, apply);
    }
  }

  /** The reference drain of a room with `bs` already broadcast. */
  function After<W, P, R>(bs: seq<Broadcast<R>>, d: Drained<W, P, R>): (r: Drained<W, P, R>)
    ensures r.room == d.room && r.crashed == d.crashed && |r.broadcasts| == |bs| + |d.broadcasts|
  {
    Drained(d.room, bs + d.broadcasts, d.crashed)
  }

  /** An unroutable head envelope ends the drain. */
  lemma CrashStep<W, P, R>(cur: RoomState<W, P>, rest: RoomState<W, P>, registered: set<SystemId>,
                           validate: (SystemId, P, ActionContext, W) -> bool,
                           apply: (SystemId, P, ActionContext, W) -> (W, R))
    requires |cur.queue| > 0 && rest == cur.(queue := cur.queue[1..])
    requires Unroutable(cur.queue[0].actionType, registered)
    ensures forall bs :: After(bs, Drain(cur, registered, validate, apply)) == Drained(rest, bs, true)
  {
    assert forall bs: seq<Broadcast<R>> :: bs + [] == bs;
  }

  /** A rejected head envelope is dropped without trace. */
  lemma SkipStep<W, P, R>(cur: RoomState<W, P>, rest: RoomState<W, P>, registered: set<SystemId>,
                          validate: (SystemId, P, ActionContext, W) -> bool,
                          apply: (SystemId, P, ActionContext, W) -> (W, R))
    requires |cur.queue| > 0 && rest == cur.(queue := cur.queue[1..])
    requires !Unroutable(cur.queue[0].actionType, registered)
    requires !validate(Route(cur.queue[0].actionType).value, cur.queue[0].payload, cur.queue[0].ctx, cur.world)
    ensures Drain(cur, registered, validate, apply) == Drain(rest, registered, validate, apply)
  {
  }

  /** An accepted head envelope is applied and broadcast at the next version. */
  lemma AcceptStep<W, P, R>(cur: RoomState<W, P>, next: RoomState<W, P>, b: Broadcast<R>, bs: seq<Broadcast<R>>,
                            registered: set<SystemId>,
                            validate: (SystemId, P, ActionContext, W) -> bool,
                            apply: (SystemId, P, ActionContext, W) -> (W, R))
    requires |cur.queue| > 0 && !Unroutable(cur.queue[0].actionType, registered)
    requires var env := cur.queue[0];
      var sid := Route(env.actionType).value;
      && validate(sid, env.payload, env.ctx, cur.world)
      && next == cur.(queue := cur.queue[1..], world := apply(sid, env.payload, env.ctx, cur.world).0,
                      version := cur.version + 1, dirty := true)
      && b == Broadcast(env.actionType, apply(sid, env.payload, env.ctx, cur.world).1, cur.version + 1)
    ensures After(bs, Drain(cur, registered, validate, apply)) == After(bs + [b], Drain(next, registered, validate, apply))
  {
    var d := Drain(next, registered, validate, apply);
    assert bs + ([b] + d.broadcasts) == (bs + [b]) + d.broadcasts;
  }

  /** An empty queue drains to itself. */
  lemma EmptyStep<W, P, R>(cur: RoomState<W, P>, bs: seq<Broadcast<R>>, registered: set<SystemId>,
                           validate: (SystemId, P, ActionContext, W) -> bool,
                           apply: (SystemId, P, ActionContext, W) -> (W, R))
    requires |cur.queue| == 0
    ensures After(bs, Drain(cur, registered, validate, apply)) == Drained(cur, bs, false)
  {
    assert bs + [] == bs;
  }

  datatype SystemEntry = SystemEntry(id: SystemId, hasOnTick: bool)

  /** The positions from `from` on of the systems that define `onTick`, in
      increasing order: every such position once, and no other. */
  function TickIndices(systems: seq<SystemEntry>, from: nat): (idx: seq<nat>)
    requires from <= |systems|
    ensures forall k :: 0 <= k < |idx| ==> from <= idx[k] < |systems| && systems[idx[k]].hasOnTick
    ensures forall k, l :: 0 <= k < l < |idx| ==> idx[k] < idx[l]
    ensures forall i :: from <= i < |systems| && systems[i].hasOnTick ==> i in idx
    decreases |systems| - from
  {
    if from == |systems| then []
    else
      var tail := TickIndices(systems, from + 1);
      if systems[from].hasOnTick then [from] + tail else tail
  }

  /** The systems, from position `from` on, whose `onTick` a tick calls:
      one call per system that defines it, in the order of `TickIndices`. */
  function Ticked(systems: seq<SystemEntry>, from: nat): (r: seq<SystemId>)
    requires from <= |systems|
    ensures |r| == |TickIndices(systems, from)|
    ensures forall k :: 0 <= k < |r| ==> r[k] == systems[TickIndices(systems, from)[k]].id
    decreases |systems| - from
  {
    if from == |systems| then []
    else
      var tail := Ticked(systems, from + 1);
      if systems[from].hasOnTick then [systems[from].id] + tail else tail
  }

  datatype TickOutcome = TickOutcome(ticked: seq<SystemId>, persistScheduled: bool)

  /** A gameplay tick: every system that defines `onTick` is called, and
      persistence is scheduled exactly when the room is dirty. */
  function OnTick(systems: seq<SystemEntry>, dirty: bool): (t: TickOutcome)
    ensures t.persistScheduled <==> dirty
    ensures |t.ticked| == |TickIndices(systems, 0)|
    ensures forall k :: 0 <= k < |t.ticked| ==> t.ticked[k] == systems[TickIndices(systems, 0)[k]].id
    ensures forall e :: e in systems && e.hasOnTick ==> e.id in t.ticked
    ensures forall id :: id in t.ticked ==> SystemEntry(id, true) in systems
  {
    var r := Ticked(systems, 0);
    forall e | e in systems && e.hasOnTick
      ensures e.id in r
    {
      var i :| 0 <= i < |systems| && systems[i] == e;
      var k :| 0 <= k < |TickIndices(systems, 0)| && TickIndices(systems, 0)[k] == i;
      assert r[k] == e.id;
    }
    forall id | id in r
      ensures SystemEntry(id, true) in systems
    {
      var k :| 0 <= k < |r| && r[k] == id;
      assert systems[TickIndices(systems, 0)[k]] == SystemEntry(id, true);
    }
    TickOutcome(r, dirty)
  }
}

=== FILE: room_buildings.dfy ===
/** The room with the buildings system plugged in: however the crops system
    behaves, draining the queue keeps the grid index well formed. */
module BuildingsRoom {
  import opened Grid
  import opened Envelopes
  import opened Results
  import Buildings
  import Room
  import Templates

  /** The room's world: the buildings system and the crops system's state. */
  datatype World<C> = World(buildings: Buildings.System, crops: C)

  function Validate<C>(cropsValidate: (Buildings.Action, ActionContext, C) -> bool):
    (Room.SystemId, Buildings.Action, ActionContext, World<C>) -> bool
  {
    (sid: Room.SystemId, a: Buildings.Action, ctx: ActionContext, w: World<C>) =>
      if sid == Room.Buildings then Buildings.ValidateAction(w.buildings, Some(a), ctx.userId).Accept?
      else cropsValidate(a, ctx, w.crops)
  }

  function Apply<C>(cropsApply: (Buildings.Action, ActionContext, C) -> (C, Buildings.ActionResult), now: int, stamp: string):
    (Room.SystemId, Buildings.Action, ActionContext, World<C>) -> (World<C>, Buildings.ActionResult)
  {
    (sid: Room.SystemId, a: Buildings.Action, ctx: ActionContext, w: World<C>) =>
      if sid == Room.Buildings then
        var o := Buildings.ApplyAction(w.buildings, a, ctx.userId, now, stamp);
        (w.(buildings := o.sys), o.result)
      else
        var (c', r) := cropsApply(a, ctx, w.crops);
        (w.(crops := c'), r)
  }

  /** Draining a room whose grid index is well formed leaves it well formed. */
  lemma DrainKeepsGridWellFormed<C>(room: Room.RoomState<World<C>, Buildings.Action>,
                                    cropsValidate: (Buildings.Action, ActionContext, C) -> bool,
                                    cropsApply: (Buildings.Action, ActionContext, C) -> (C, Buildings.ActionResult),
                                    now: int, stamp: string)
    requires WellFormed(room.world.buildings.grid)
    ensures WellFormed(Room.Drain(room, Room.Registered, Validate(cropsValidate), Apply(cropsApply, now, stamp)).room.world.buildings.grid)
  {
    var validate := Validate(cropsValidate);
    var apply := Apply(cropsApply, now, stamp);
    var inv := (w: World<C>) => WellFormed(w.buildings.grid);
    forall sid, a, ctx, w | inv(w) && validate(sid, a, ctx, w)
      ensures inv(apply(sid, a, ctx, w).0)
    {
      if sid == Room.Buildings {
        Buildings.ValidatedApplyPreservesWellFormed(w.buildings, a, ctx.userId, now, stamp);
      }
    }
    Room.DrainPreserves(room, Room.Registered, validate, apply, inv);
  }

  // ---------------------------------------------------------------------------
  // As written, with a cost checker configured
  // ---------------------------------------------------------------------------

  /** A drain of buildings envelopes in which each `applyAction` finishes
      before the next envelope is validated: what the room does when no cost
      checker is configured. */
  function AwaitedDrain(s: Buildings.System, envs: seq<(Buildings.Action, string)>,
                        now: int, stamp: string): (r: Buildings.System)
    ensures r.bounds == s.bounds && r.registry == s.registry
    ensures r.checker == s.checker && r.applier == s.applier
    decreases |envs|
  {
    if envs == [] then s
    else
      var (a, userId) := envs[0];
      var s' := if Buildings.ValidateAction(s, Some(a), userId).Accept?
                then Buildings.ApplyAction(s, a, userId, now, stamp).sys else s;
      AwaitedDrain(s', envs[1..], now, stamp)
  }

  /** The awaited drain keeps the index invariant. */
  lemma {:induction false} AwaitedDrainKeepsWellFormed(s: Buildings.System, envs: seq<(Buildings.Action, string)>,
                                                       now: int, stamp: string)
    requires WellFormed(s.grid)
    ensures WellFormed(AwaitedDrain(s, envs, now, stamp).grid)
    decreases |envs|
  {
    if envs != [] {
      var (a, userId) := envs[0];
      var s' := if Buildings.ValidateAction(s, Some(a), userId).Accept?
                then Buildings.ApplyAction(s, a, userId, now, stamp).sys else s;
      if Buildings.ValidateAction(s, Some(a), userId).Accept? {
        Buildings.ValidatedApplyPreservesWellFormed(s, a, userId, now, stamp);
      }
      AwaitedDrainKeepsWellFormed(s', envs[1..], now, stamp);
    }
  }

  /** The suspended places resuming after the drain, in the order they were
      accepted (ports answering in call order). */
  function Settle(s: Buildings.System, pending: seq<(Buildings.Action, string)>,
                  now: int, stamp: string): (r: Buildings.System)
    ensures r.bounds == s.bounds && r.registry == s.registry
    ensures r.checker == s.checker && r.applier == s.applier
    ensures pending == [] ==> r == s
    decreases |pending|
  {
    if pending == [] then s
    else Settle(Buildings.ApplyAction(s, pending[0].0, pending[0].1, now, stamp).sys, pending[1..], now, stamp)
  }

  /** One drain of buildings envelopes as the source runs it: the room does
      not await `applyAction`. A remove has no `await`, so it reaches the grid
      before the next envelope is validated. A place with a cost checker
      configured suspends at the checker before it touches the grid, so it
      joins `pending` and lands only after the drain, and the envelopes after
      it are validated without it. Without a checker, or without places, this
      is the awaited drain. */
  function UnawaitedDrain(s: Buildings.System, pending: seq<(Buildings.Action, string)>,
                          envs: seq<(Buildings.Action, string)>, now: int, stamp: string): (r: Buildings.System)
    ensures r.bounds == s.bounds && r.registry == s.registry
    ensures r.checker == s.checker && r.applier == s.applier
    ensures pending == [] && (s.checker.None? || forall i :: 0 <= i < |envs| ==> envs[i].0.kind != Buildings.PLACE) ==>
      r == AwaitedDrain(s, envs, now, stamp)
    decreases |envs|
  {
    if envs == [] then Settle(s, pending, now, stamp)
    else
      var (a, userId) := envs[0];
      if !Buildings.ValidateAction(s, Some(a), userId).Accept? then
        UnawaitedDrain(s, pending, envs[1..], now, stamp)
      else if a.kind == Buildings.PLACE && s.checker.Some? then
        UnawaitedDrain(s, pending + [(a, userId)], envs[1..], now, stamp)
      else
        UnawaitedDrain(Buildings.ApplyAction(s, a, userId, now, stamp).sys, pending, envs[1..], now, stamp)
  }

  /** A checker that approves every cost. */
  function ApproveAll(userId: string, cost: Option<Buildings.Cost>): Buildings.PortResult {
    Buildings.PortResult(true, "")
  }

  /** A system with an approving cost checker and the default templates. */
  const Approving := Buildings.CreateBuildingsSystem(Some(Buildings.Options(None, None, Some(ApproveAll), None)))

  const HouseAtOrigin := Buildings.Action(Buildings.PLACE, Buildings.Payload("house", Pos(0, 0), None, ""))

  const HouseAtOneOne := Buildings.Action(Buildings.PLACE, Buildings.Payload("house", Pos(1, 1), None, ""))

  /** Placing the two overlapping houses one after the other, without
      re-checking, leaves the cell (1,1) of the first naming the second. */
  lemma OverlappingSettleBreaksGrid(now: int, stamp: string)
    ensures !WellFormed(Settle(Approving, [(HouseAtOrigin, "u"), (HouseAtOneOne, "u")], now, stamp).grid)
  {
    var s := Approving;
    Templates.DefaultShapes();
    assert s.registry["house"] == Templates.House;
    var p1 := Place(s.grid, "u", "house", Pos(0, 0), 2, 2, None, now, stamp);
    var s1 := Buildings.ApplyAction(s, HouseAtOrigin, "u", now, stamp).sys;
    assert s1.grid == p1.grid;
    var p2 := Place(s1.grid, "u", "house", Pos(1, 1), 2, 2, None, now, stamp);
    var s2 := Buildings.ApplyAction(s1, HouseAtOneOne, "u", now, stamp).sys;
    assert s2.grid == p2.grid;
    assert Settle(s, [(HouseAtOrigin, "u"), (HouseAtOneOne, "u")], now, stamp) == Settle(s1, [(HouseAtOneOne, "u")], now, stamp);
    assert Settle(s1, [(HouseAtOneOne, "u")], now, stamp) == s2;
    var b1 := p1.building;
    assert CounterOf(b1.id) == Some(1) && CounterOf(p2.building.id) == Some(2);
    assert b1.id in s2.grid.byId && s2.grid.byId[b1.id] == b1;
    assert Covers(b1, Pos(1, 1));
    assert s2.grid.occupancy[Pos(1, 1)] != b1.id;
  }

  /** Two overlapping houses drained together while a checker is configured
      both pass validation against the empty grid, and both are placed: the
      cell (1,1) of the first house then names the second, and the index is
      no longer well formed. */
  lemma DeferredPlacesBreakGrid(now: int, stamp: string)
    ensures WellFormed(Approving.grid)
    ensures Buildings.ValidateAction(Approving, Some(HouseAtOrigin), "u").Accept?
    ensures Buildings.ValidateAction(Approving, Some(HouseAtOneOne), "u").Accept?
    ensures !WellFormed(UnawaitedDrain(Approving, [], [(HouseAtOrigin, "u"), (HouseAtOneOne, "u")], now, stamp).grid)
  {
    var s := Approving;
    Templates.DefaultShapes();
    assert s.registry["house"] == Templates.House;
    assert Buildings.ValidateAction(s, Some(HouseAtOrigin), "u").Accept?;
    assert Buildings.ValidateAction(s, Some(HouseAtOneOne), "u").Accept?;
    assert s.checker.Some?;
    var envs := [(HouseAtOrigin, "u"), (HouseAtOneOne, "u")];
    assert envs[1..] == [(HouseAtOneOne, "u")] && [] + [(HouseAtOrigin, "u")] == [(HouseAtOrigin, "u")];
    assert UnawaitedDrain(s, [], [(HouseAtOrigin, "u"), (HouseAtOneOne, "u")], now, stamp)
        == UnawaitedDrain(s, [(HouseAtOrigin, "u")], [(HouseAtOneOne, "u")], now, stamp);
    assert UnawaitedDrain(s, [(HouseAtOrigin, "u")], [(HouseAtOneOne, "u")], now, stamp)
        == Settle(s, [(HouseAtOrigin, "u"), (HouseAtOneOne, "u")], now, stamp);
    OverlappingSettleBreaksGrid(now, stamp);
  }

  /** Removing the house at the origin. */
  function RemoveHouse(stamp: string): Buildings.Action {
    Buildings.Action(Buildings.REMOVE, Buildings.Payload("", Pos(0, 0), None, MakeId(1, stamp)))
  }

  /** Removing the house placed first frees the origin for another house. */
  lemma RemoveFreesOrigin(now: int, stamp: string)
    ensures var s := Buildings.ApplyAction(Approving, HouseAtOrigin, "u", now, stamp).sys;
            var s2 := Buildings.ApplyAction(s, RemoveHouse(stamp), "u", now, stamp).sys;
            && MakeId(1, stamp) in s.grid.byId
            && Buildings.ValidateAction(s, Some(RemoveHouse(stamp)), "u").Accept?
            && MakeId(1, stamp) !in s2.grid.byId && s2.grid.nextIdCounter == 2
            && s2.checker.Some? && Buildings.ValidateAction(s2, Some(HouseAtOrigin), "u").Accept?
  {
    Templates.DefaultShapes();
    assert Approving.registry["house"] == Templates.House && Approving.checker.Some?;
    var s := Buildings.ApplyAction(Approving, HouseAtOrigin, "u", now, stamp).sys;
    var p1 := Place(Approving.grid, "u", "house", Pos(0, 0), 2, 2, None, now, stamp);
    assert s.grid == p1.grid;
    var id := MakeId(1, stamp);
    assert p1.building.id == id && s.grid.byId[id] == p1.building;
    assert Buildings.ValidateAction(s, Some(RemoveHouse(stamp)), "u").Accept?;
    var s2 := Buildings.ApplyAction(s, RemoveHouse(stamp), "u", now, stamp).sys;
    assert forall c :: InFootprint(c, Pos(0, 0), 2, 2) ==> Covers(p1.building, c);
    assert forall c :: InFootprint(c, Pos(0, 0), 2, 2) ==> c !in s2.grid.occupancy;
  }

  /** The drain of [remove, place] reaches the grid as the remove followed by
      the settled place. */
  lemma RemoveThenPlaceDrain(now: int, stamp: string)
    ensures var s := Buildings.ApplyAction(Approving, HouseAtOrigin, "u", now, stamp).sys;
            var s2 := Buildings.ApplyAction(s, RemoveHouse(stamp), "u", now, stamp).sys;
            UnawaitedDrain(s, [], [(RemoveHouse(stamp), "u"), (HouseAtOrigin, "u")], now, stamp)
              == Buildings.ApplyAction(s2, HouseAtOrigin, "u", now, stamp).sys
  {
    RemoveFreesOrigin(now, stamp);
    var s := Buildings.ApplyAction(Approving, HouseAtOrigin, "u", now, stamp).sys;
    var s2 := Buildings.ApplyAction(s, RemoveHouse(stamp), "u", now, stamp).sys;
    var envs := [(RemoveHouse(stamp), "u"), (HouseAtOrigin, "u")];
    assert envs[1..] == [(HouseAtOrigin, "u")] && [] + [(HouseAtOrigin, "u")] == [(HouseAtOrigin, "u")];
    assert UnawaitedDrain(s, [], envs, now, stamp) == UnawaitedDrain(s2, [], [(HouseAtOrigin, "u")], now, stamp);
    assert UnawaitedDrain(s2, [], [(HouseAtOrigin, "u")], now, stamp) == Settle(s2, [(HouseAtOrigin, "u")], now, stamp);
  }

  /** A remove does not suspend: it frees its cells before the next envelope
      is validated, so a house placed where the removed one stood is accepted
      in the same drain, and lands once the drain is over. */
  lemma RemoveThenPlaceLands(now: int, stamp: string)
    ensures var s := Buildings.ApplyAction(Approving, HouseAtOrigin, "u", now, stamp).sys;
            var r := UnawaitedDrain(s, [], [(RemoveHouse(stamp), "u"), (HouseAtOrigin, "u")], now, stamp);
            && MakeId(1, stamp) in s.grid.byId
            && MakeId(1, stamp) !in r.grid.byId
            && Pos(0, 0) in r.grid.occupancy && r.grid.occupancy[Pos(0, 0)] == MakeId(2, stamp)
  {
    RemoveFreesOrigin(now, stamp);
    RemoveThenPlaceDrain(now, stamp);
    Templates.DefaultShapes();
    var s := Buildings.ApplyAction(Approving, HouseAtOrigin, "u", now, stamp).sys;
    var s2 := Buildings.ApplyAction(s, RemoveHouse(stamp), "u", now, stamp).sys;
    assert s2.registry["house"] == Templates.House;
    var s3 := Buildings.ApplyAction(s2, HouseAtOrigin, "u", now, stamp).sys;
    var p2 := Place(s2.grid, "u", "house", Pos(0, 0), 2, 2, None, now, stamp);
    assert s3.grid == p2.grid;
  }
}

=== FILE: shape_checks.dfy ===
/** The minimal shape checks for a game configuration and a persisted farm
    state. A thrown error becomes `Err` with the same message; reading a
    property of `null` or `undefined` becomes a `TypeError`. */
module ShapeChecks {
  import opened Results
  import opened Json

  const MISSING_VERSION := "missing config_version"
  const MISSING_CHECKSUM := "missing checksum"
  const MISSING_FARM := "missing farm_id"
  const MISSING_SEQUENCE := "missing sequence"
  const NO_PROPERTIES := "TypeError: cannot read properties of null or undefined"

  /** A configuration needs a truthy version tag and a truthy checksum,
      checked in that order. */
  function ValidateConfigShape(cfg: Value): (r: Result<bool>)
    ensures Nullish(cfg) ==> r == Err(NO_PROPERTIES)
    ensures !Nullish(cfg) ==>
      (r.Ok? <==> Truthy(Field(cfg, "config_version")) && Truthy(Field(cfg, "checksum")))
    ensures !Nullish(cfg) && !Truthy(Field(cfg, "config_version")) ==> r == Err(MISSING_VERSION)
    ensures !Nullish(cfg) && Truthy(Field(cfg, "config_version")) && !Truthy(Field(cfg, "checksum")) ==>
      r == Err(MISSING_CHECKSUM)
    ensures r.Ok? ==> r.value
  {
    if Nullish(cfg) then Err(NO_PROPERTIES)
    else if !Truthy(Field(cfg, "config_version")) then Err(MISSING_VERSION)
    else if !Truthy(Field(cfg, "checksum")) then Err(MISSING_CHECKSUM)
    else Ok(true)
  }

  /** A farm state needs a truthy farm id and a numeric sequence; a zero
      sequence is a number and passes. */
  function ValidateFarmShape(state: Value): (r: Result<bool>)
    ensures Nullish(state) ==> r == Err(NO_PROPERTIES)
    ensures !Nullish(state) ==>
      (r.Ok? <==> Truthy(Field(state, "farm_id")) && Field(state, "sequence").Num?)
    ensures !Nullish(state) && !Truthy(Field(state, "farm_id")) ==> r == Err(MISSING_FARM)
    ensures !Nullish(state) && Truthy(Field(state, "farm_id")) && !Field(state, "sequence").Num? ==>
      r == Err(MISSING_SEQUENCE)
    ensures r.Ok? ==> r.value
  {
    if Nullish(state) then Err(NO_PROPERTIES)
    else if !Truthy(Field(state, "farm_id")) then Err(MISSING_FARM)
    else if !Field(state, "sequence").Num? then Err(MISSING_SEQUENCE)
    else Ok(true)
  }

  /** The shipped default configuration carries an empty checksum, so it
      fails validation until a checksum is stamped onto it; any non-empty
      digest then makes it pass. */
  lemma ChecksumStampingPasses(cfg: map<string, Value>, digest: string)
    requires "config_version" in cfg && Truthy(cfg["config_version"])
    requires |digest| > 0
    ensures ValidateConfigShape(Obj(cfg["checksum" := Str("")])) == Err(MISSING_CHECKSUM)
    ensures ValidateConfigShape(Obj(cfg["checksum" := Str(digest)])) == Ok(true)
  {
    assert Field(Obj(cfg["checksum" := Str("")]), "config_version") == cfg["config_version"];
    assert Field(Obj(cfg["checksum" := Str(digest)]), "config_version") == cfg["config_version"];
  }

  /** A fresh farm at sequence 0 passes, although 0 is falsy. */
  lemma ZeroSequencePasses(farmId: string)
    requires |farmId| > 0
    ensures ValidateFarmShape(Obj(map["farm_id" := Str(farmId), "sequence" := Num(0.0)])) == Ok(true)
    ensures !Truthy(Num(0.0))
  {
  }

  /** Only the two checked fields matter: changing any other field of a
      configuration or a farm state never changes the verdict. */
  lemma OtherFieldsIgnored(fields: map<string, Value>, key: string, v: Value)
    requires key !in {"config_version", "checksum", "farm_id", "sequence"}
    ensures ValidateConfigShape(Obj(fields[key := v])) == ValidateConfigShape(Obj(fields))
    ensures ValidateFarmShape(Obj(fields[key := v])) == ValidateFarmShape(Obj(fields))
  {
    assert Field(Obj(fields[key := v]), "config_version") == Field(Obj(fields), "config_version");
    assert Field(Obj(fields[key := v]), "checksum") == Field(Obj(fields), "checksum");
    assert Field(Obj(fields[key := v]), "farm_id") == Field(Obj(fields), "farm_id");
    assert Field(Obj(fields[key := v]), "sequence") == Field(Obj(fields), "sequence");
  }

  /** With a non-empty farm id, a farm state passes exactly when its
      sequence is a number: a `null`, a string or an `undefined` sequence
      fails. */
  lemma FarmShapeNeedsNumericSequence(farmId: string, sequence: Value)
    requires |farmId| > 0
    ensures ValidateFarmShape(Obj(map["farm_id" := Str(farmId), "sequence" := sequence])).Ok? <==> sequence.Num?
  {
    var state := Obj(map["farm_id" := Str(farmId), "sequence" := sequence]);
    assert Field(state, "farm_id") == Str(farmId) && Field(state, "sequence") == sequence;
  }
}

=== FILE: templates.dfy ===
/** The building template registry: built-in defaults merged with
    caller-supplied overrides, fixed once created, looked up by key. */
module Templates {
  import opened Results

  /** What the buildings system reads from a template: its id, footprint
      (`width`/`height` in the registry entries), hit points, level cap, the
      per-level upgrade gold list, and the gold build cost (0 when absent). */
  datatype Template = Template(
    id: string,
    w: int,
    h: int,
    baseHp: int,
    maxLevel: int,
    upgradeGold: seq<int>,
    gold: int)

  const House := Template("house", 2, 2, 100, 3, [50, 100], 0)
  const Barn := Template("barn", 3, 3, 150, 5, [100, 200, 400], 0)

  const DefaultTemplates: map<string, Template> := map["house" := House, "barn" := Barn]

  type Registry = map<string, Template>

  /** The defaults overlaid by the overrides (absent overrides add nothing). */
  function CreateRegistry(overrides: Option<map<string, Template>>): (r: Registry)
    ensures r.Keys == DefaultTemplates.Keys + overrides.GetOr(map[]).Keys
    ensures forall k :: k in overrides.GetOr(map[]) ==> r[k] == overrides.value[k]
    ensures forall k :: k in DefaultTemplates && k !in overrides.GetOr(map[]) ==> r[k] == DefaultTemplates[k]
  {
    DefaultTemplates + overrides.GetOr(map[])
  }

  function Get(r: Registry, key: string): (t: Option<Template>)
    ensures t.Some? <==> key in r
    ensures t.Some? ==> t.value == r[key]
  {
    if key in r then Some(r[key]) else None
  }

  /** A lookup in a created registry: the override when there is one, else
      the default, else nothing. */
  lemma LookupPrecedence(overrides: Option<map<string, Template>>, key: string)
    ensures Get(CreateRegistry(overrides), key) ==
      if overrides.Some? && key in overrides.value then Some(overrides.value[key])
      else if key in DefaultTemplates then Some(DefaultTemplates[key])
      else None
  {
  }

  /** The defaults: a 2x2 house capped at level 3 and a 3x3 barn capped at 5. */
  lemma DefaultShapes()
    ensures Get(CreateRegistry(None), "house") == Some(House) && House.w == 2 && House.h == 2 && House.maxLevel == 3
    ensures Get(CreateRegistry(None), "barn") == Some(Barn) && Barn.w == 3 && Barn.h == 3 && Barn.maxLevel == 5
    ensures CreateRegistry(None).Keys == {"house", "barn"}
  {
  }
}
